=== FILE: README.md ===
# go-auth core in Dafny

A model of the decision logic of the go-auth service, a small HTTP authentication server. Users sign up and log in with a password. The log-in answers a short-lived JSON Web Token (JWT) that is not yet authenticated. With that token, the user sets up a TOTP second factor and verifies a one-time code, which earns an authenticated token. A protected endpoint then admits only authenticated tokens.

The model covers five parts of the service.

- **Request-body validator** (`JsonDecoder`). `decodeJSONBody` runs four checks in order: Content-Type, the decode, trailing data, then required fields. The first failure is the answer. The outcome of Go's JSON decoder is an input datatype (`Payload`).
- **Problem-details classifier** (`Problems`). It turns an error into the status, type, title, detail and instance of a problem response. It covers the MySQL duplicate-key analysis: substring tests on `users.username` and `users.email`, and the lazy regular expression `'(.{3,30}?)'` that extracts the quoted entry. That expression is modelled exactly in `QuotedEntry`.
- **Handlers** (`Server`). `Signup`, `Login`, `Setup2FA`, `Verify2FA` and `TestAuth` are transitions over an immutable user store (`Store`). The store maps a username to its e-mail, password hash, 2FA secret and enabled flag.
- **Token claims** (`Jwt`). This covers the claims `GenerateJWT` signs, the HMAC-only key callback, the JWT library's `Parse` decision, and what `ValidateToken` hands back.
- **Content-Type filter** (`Middleware`). The middleware forwards only requests whose header is exactly `application/json`.

### Supporting modules

- `Strings` models `strings.Contains`, `HasPrefix`, `TrimPrefix`, and `Split(...)[1]`.
- `Strconv` models `%d`, `strconv.FormatInt` and `%q`, each with its inverse.
- `Base32` models the standard base32 encoding of section 6 of RFC 4648, with its decoder.

### Abstracted dependencies

What the service delegates to libraries or to the outside world becomes a parameter:

- **Clock.** Time is `Env.now`, in Unix seconds.
- **JWT library and process key.** `Jwt.Jose` bundles the key with signing, header and payload reading, and signature checking. `Jwt.Coherent` says when they fit together.
- **bcrypt.** The `Env.encrypt` and `Env.matches` functions, with `Server.HashCoherent`: a hash made from a password matches it.
- **TOTP check of `dgoogauth`.** `Env.authenticate`.
- **Random bytes.** The ten random bytes of a 2FA secret are an argument of `Setup2FA`.
- **Database failures.** `Db.fault`: when set, every store call fails with that error.

### Deviations and assumptions

Some source files come from different revisions. `server.go` passes the request path to every problem constructor and calls `Unauthorized(path)`. `problemDetails.go` defines one-argument versions and no `Unauthorized`. The model follows the call sites, so every problem constructor takes the path, which becomes the `instance`.

- `Unauthorized` is defined in no file. It is modelled as a 401 whose type, title and detail are placeholders. Contracts speak only of its status and instance.
- `validateJSONRequestBody`, called by the handlers, is taken to be `decodeJSONBody`.
- The store operations `GetEnabled2FA`, `Get2FASecret`, `Save2FASecret` and `UpdateEnabled2FA` have no SQL in the files. They are modelled as reads and updates by username. An update for a missing user changes nothing.
- Duplicate-key errors carry the MySQL 8 message `Duplicate entry '<value>' for key '<key>'`, with the username key checked first.
- Token lifetime follows the code: both tokens live 300 seconds. A long lifetime for authenticated tokens is not modelled.

### Behaviour worth knowing

These follow directly from the code:

- A username of one or two characters is too short for the entry expression. The lazy match then runs on to the next quote, so the detail for `Bo` quotes `'Bo' for key '` (`Problems.ShortUsernameEntry`).
- An e-mail address that contains `users.username` is reported as a username clash (`Problems.EmailMistakenForUsername`).
- A non-empty `Authorization` header without `Bearer ` makes the handler index past the end of the split, which is a panic (`Server.Authorize`).
- The secret lookup in `Verify2FA` drops its error, so the code is checked against the empty secret.

## Model

| member | source | states |
|---|---|---|
| Strings.IndexOf | pkg/server/problemDetails.go:95-103 | the leftmost occurrence of a substring, or none when there is none |
| Strings.Contains | pkg/server/problemDetails.go:95-103 | true exactly when the substring occurs at some position |
| Strings.TrimPrefix | pkg/server/jsonDecoder.go:79-81 | with the prefix present, prefix + result is the input; otherwise the input unchanged |
| Strings.SplitSecond | pkg/server/server.go:104 | the second field of splitting on a separator exists exactly when the separator occurs; it starts right after the first occurrence and runs to the next occurrence or to the end, holding no separator |
| Strings.FieldAfterUnique | pkg/server/server.go:104 | the field after a given occurrence, running to the next occurrence or the end, is unique |
| Strings.SplitSecondIsField | pkg/server/server.go:104 | any text that is the field after the first occurrence is what the split returns |
| Strings.SplitSecondOfPrefixed | pkg/server/server.go:104 | splitting separator + t yields t when t holds no separator |
| Strconv.ParseFormatNat | pkg/server/jsonDecoder.go:61-64 | the decimal rendering of a natural number reads back as that number |
| Strconv.FormatNat | pkg/server/jsonDecoder.go:61-64 | a non-empty string of digits with no leading zero, one digit exactly below ten |
| Strconv.FormatInt | pkg/server/server.go:168 | a non-empty string that starts with '-' exactly for negative numbers |
| Strconv.FormatIntRoundTrip | pkg/server/server.go:168 | the base-10 rendering of any integer parses back to it |
| Strconv.FormatIntInjective | pkg/server/server.go:168 | distinct codes give distinct strings, so the TOTP check sees the submitted code |
| Strconv.UnescapeEscape | pkg/server/jsonDecoder.go:72-76 | unescaping the escaped text gives the text back |
| Strconv.UnquoteQuote | pkg/server/jsonDecoder.go:72-76 | the %q rendering of a field name unquotes to the name |
| QuotedEntry.ShortestFrom | pkg/server/problemDetails.go:92-93 | at a fixed start, the shortest inner run of 3 to 30 non-newline characters closed by a quote, or none |
| QuotedEntry.LeftmostFrom | pkg/server/problemDetails.go:92-93 | the leftmost start that matches at all, with the shortest run there; none when no start matches |
| QuotedEntry.FindString | pkg/server/problemDetails.go:92-93 | empty exactly when the expression matches nowhere; otherwise a match whose every earlier start fails and every shorter run fails |
| QuotedEntry.FindStringIs | pkg/server/problemDetails.go:92-93 | a leftmost, shortest match is the one returned, quotes included |
| QuotedEntry.FindQuotedValue | pkg/server/problemDetails.go:92-93 | for a quote-free prefix and a 3-30 character value, the match is the value in quotes |
| Base32.Encode | pkg/server/server.go:124 | eight characters for every started block of five bytes |
| Base32.Decode | pkg/server/server.go:124 | a text decodes only when its length is a multiple of eight, to at most five bytes per eight characters |
| Base32.BlockNumber | pkg/server/server.go:124 | read as one big-endian number, a block's five-bit digits are the block's bytes, most significant bit first, shifted left over the zero fill |
| Base32.RfcVectorF | pkg/server/server.go:124 | the byte "f" encodes to "MY======", the test vector of section 10 of RFC 4648 |
| Base32.RfcVectorFoobar | pkg/server/server.go:124 | "foobar" encodes to "MZXW6YTBOI======", the test vector of section 10 of RFC 4648 |
| Base32.DecodeEncode | pkg/server/server.go:122-124 | decoding the encoding of any byte string gives the bytes back |
| Base32.EncodeCharacters | pkg/server/server.go:122-124 | every character of an encoding is from the alphabet or the padding, and padding appears only when the length is not a multiple of five |
| Base32.EncodeTenBytes | pkg/server/server.go:122-124 | ten bytes encode to exactly 16 characters, all from A-Z and 2-7, with no padding |
| JsonDecoder.ClassifyDecodeError | pkg/server/jsonDecoder.go:59-92 | a recognised decode error gets 400, or 413 exactly for the too-large body; no case matches exactly a plain error that is neither an unknown field nor too large; each case has its message: the syntax error's offset, the bare badly-formed text for a truncated body, the quoted field and offset of a type error, the unknown field's name, the empty-body text, and "must not be larger than 128B" |
| JsonDecoder.ReadClassified | pkg/server/jsonDecoder.go:59-92 | the offset, the field name and the unknown field's name read back from a diagnostic give the error it was made from |
| JsonDecoder.ClassifyInjective | pkg/server/jsonDecoder.go:59-92 | distinct recognised decode errors get distinct diagnostics |
| JsonDecoder.ReadOffsetOf | pkg/server/jsonDecoder.go:61-64 | the digits in "badly-formed JSON (at position n)" read back as n |
| JsonDecoder.ReadTypeErrorOf | pkg/server/jsonDecoder.go:72-76 | the quoted field and the offset of an invalid-value message read back as that field and offset |
| JsonDecoder.DecodeJsonBody | pkg/server/jsonDecoder.go:40-108 | every failure is 400, 413 or 415; 415 exactly when the Content-Type is not application/json; 413 exactly for a too-large body; a decode error the switch recognises answers exactly its ClassifyDecodeError diagnostic; otherwise trailing data answers the single-object message and an incomplete record the required-fields message |
| JsonDecoder.DecodeMessagesDistinct | pkg/server/jsonDecoder.go:59-106 | no decode-step message equals the content-type, trailing-data or incomplete message, so a message names its stage |
| JsonDecoder.RejectionNamesFirstFailingStage | pkg/server/jsonDecoder.go:40-108 | a rejection names a stage that fails, and every earlier stage passes |
| JsonDecoder.AcceptedIffNoStageFails | pkg/server/jsonDecoder.go:40-108 | a body is accepted exactly when none of the four stages fails |
| JsonDecoder.UnmatchedErrorFallsThrough | pkg/server/jsonDecoder.go:59-99 | a decode error no case recognises is answered by the trailing-data check, as "must only contain a single JSON object" |
| JsonDecoder.PinnedSyntaxErrors | pkg/server/server_test.go:55-62 | syntax errors at offsets 24 and 19 give "badly-formed JSON (at position n)" as the handler tests expect |
| JsonDecoder.PinnedTruncated | pkg/server/server_test.go:63-70 | a truncated body gives the unqualified "Request body contains badly-formed JSON" |
| JsonDecoder.PinnedTypeError | pkg/server/server_test.go:71-81 | a number for "email" at offset 12 gives the quoted field name and the offset |
| JsonDecoder.PinnedUnknownField | pkg/server/server_test.go:82-88 | the unknown field "unknown" is named with its quotes |
| JsonDecoder.PinnedEmptyAndTooLarge | pkg/server/server_test.go:89-103 | an empty body is 400, a too-large one 413 "must not be larger than 128B", text/plain 415 |
| Problems.DuplicateOf | pkg/server/problemDetails.go:95-109 | a username clash exactly when the message names users.username; an e-mail clash exactly when it names users.email and not users.username |
| Problems.SqlDuplicateEntry | pkg/server/problemDetails.go:91-113 | for each of the three column classifications, the exact type, title and detail, the detail embedding the extracted entry |
| Problems.MySqlProblem | pkg/server/problemDetails.go:66-86 | number 1062 gives 409 with the duplicate-entry triple, any other number the 500 problem |
| Problems.GetProblemDetails | pkg/server/problemDetails.go:35-45 | instance is the path; status is 409 exactly for MySQL 1062, 401 exactly for no rows and then the username-not-found problem, otherwise 500 with the generic problem |
| Problems.UnexpectedErrorProblem | pkg/server/problemDetails.go:15-22 | the generic 500 problem "unexpected.error" for the request path |
| Problems.Unauthorized | pkg/server/server.go:100 | a 401 for the request path |
| Problems.InvalidCredentials | pkg/server/problemDetails.go:24-31 | 401 "credentials.invalid", "Invalid credentials", for the request path |
| Problems.SqlNoRows | pkg/server/problemDetails.go:115-128 | 401 "username.not_found", "Entered username was not found", for the request path |
| Problems.LoginProblemsApart | pkg/server/problemDetails.go:24-31 | the unknown-username and invalid-credentials problems share their status but differ in type and title |
| Problems.BadRequest | pkg/server/problemDetails.go:50-61 | a malformed request keeps its status and message as "bad.request"/"Bad request"; anything else is the 500 problem |
| Problems.EntryOfDuplicateMessage | pkg/server/problemDetails.go:92-93 | the entry extracted from a MySQL duplicate-key message is the offending value in quotes |
| Problems.KeyOccursInMessage | pkg/server/problemDetails.go:95-103 | the duplicate-key message names its key |
| Problems.UsernameKeyNotInEmailMessage | pkg/server/problemDetails.go:95-103 | an e-mail duplicate message does not name users.username unless the address does |
| Problems.UsernameClash | pkg/server/problemDetails.go:95-99 | a duplicate username gives 409 "username.already_exists" with detail "Username '<name>' already exists" |
| Problems.EmailClash | pkg/server/problemDetails.go:100-103 | a duplicate address gives 409 "email.already_used" with detail "Email '<address>' is already used" |
| Problems.EmailMistakenForUsername | pkg/server/problemDetails.go:95-103 | an address containing users.username is classified as a username clash |
| Problems.ShortUsernameEntry | pkg/server/problemDetails.go:92-93 | for the two-character username Bo the extracted entry runs to the next quote |
| Problems.PinnedProblems | pkg/server/problemDetail_test.go:13-105 | the classifier's test cases: three 1062 messages give 409, number 1 and an unknown error give the 500 problem, no rows gives 401 |
| Jwt.ClaimsAt | pkg/security/jwt.go:46-53 | the claims carry the given username and flag and expire 300 seconds after now |
| Jwt.GenerateJwt | pkg/security/jwt.go:44-62 | an error exactly when signing the claims fails, then with the empty token; otherwise the token is the signature of those claims |
| Jwt.KeyFunc | pkg/security/jwt.go:67-73 | the key is handed out exactly for the HMAC family; otherwise the error names the header's algorithm |
| Jwt.Parse | pkg/security/jwt.go:67-74 | valid exactly when there is no error, and exactly when the token reads, names an HMAC method, is not expired and its signature checks |
| Jwt.ValidateToken | pkg/security/jwt.go:64-83 | success exactly when the library finds the token valid, and then the empty claims; failures pass the library's error on |
| Jwt.ValidateTokenClaims | pkg/security/jwt.go:64-83 | success exactly when the token is valid, and then the claims the token carries |
| Jwt.NonHmacRejected | pkg/security/jwt.go:68-70 | a token naming a non-HMAC method is refused with "unexpected signing method: <alg>" |
| Jwt.InvalidJwtTokenUnreachable | pkg/security/jwt.go:78-82 | the "invalid JWT token" error is never returned |
| Jwt.IssuedTokenValidates | pkg/security/jwt.go:44-83 | an issued token validates until its expiry to the claims it was issued with |
| Jwt.IssuedTokenExpires | pkg/security/jwt.go:44-83 | after 300 seconds the same token is refused as expired |
| Jwt.ValidateTokenForgetsClaims | pkg/security/jwt.go:64-79 | a fresh authenticated token is accepted but yields the empty, unauthenticated claims |
| Jwt.InitKey | pkg/security/jwt.go:20-31 | the key is the bytes read exactly when 64 of them were read without error; a short read is "Didn't create a secret" |
| Middleware.ContentTypeFilter | pkg/middleware/contentType.go:12-31 | forwards the unchanged request exactly when the header is application/json; otherwise a 415 "bad.request" problem |
| Middleware.FilterMatchesDecoder | pkg/middleware/contentType.go:15-23 | the filter rejects exactly the requests the decoder answers 415, with the same message |
| Middleware.ForwardedNeverUnsupported | pkg/middleware/contentType.go:15-29 | behind the filter the decoder never answers 415 |
| Middleware.PinnedFilter | pkg/middleware/contentType_test.go:46-53 | an absent header and "textPlain" are rejected, application/json is forwarded |
| Store.UserByUsername | pkg/db/dbQueries.go:5-14 | the stored row exactly when the user exists; no rows when it does not |
| Store.SaveUser | pkg/db/dbQueries.go:17-30 | insertion succeeds exactly for a new username and an unused address; a taken username, then a taken address, gives the MySQL 1062 message for its key |
| Store.GetEnabled2FA | pkg/server/server.go:111-115 | the user's enabled flag, exactly when the user exists |
| Store.Get2FASecret | pkg/server/server.go:155 | the stored secret, exactly when the user exists and has one |
| Store.Save2FASecret | pkg/server/server.go:126-130 | the user's secret becomes the given one; nothing else changes |
| Store.UpdateEnabled2FA | pkg/server/server.go:194-196 | the user's flag becomes the given one; nothing else changes |
| Store.UpdatesGrow | pkg/server/server.go:51-196 | insertion, storing a secret and enabling 2FA keep every user, their address and hash, and never clear the enabled flag |
| Store.GrowsTransitive | pkg/server/server.go:51-196 | keeping users and the enabled flag composes over several calls |
| Server.BearerToken | pkg/server/server.go:98-104 | no token exactly for an empty header; a panic case exactly when a non-empty header lacks "Bearer "; otherwise the text after the first "Bearer ", up to the next "Bearer " or the end |
| Server.BearerOfStandardHeader | pkg/server/server.go:104 | "Bearer " + token yields the token |
| Server.Authorize | pkg/server/server.go:98-109 | claims exactly when a token is extracted and validates; an empty header or rejected token is 401; a header without the prefix panics |
| Server.Signup | pkg/server/server.go:30-56 | a bad body is the BadRequest problem with the store unchanged; a hashing failure is the 500 problem; a failed insertion is classified by GetProblemDetails; success adds exactly the new user with the password's hash; any failure leaves the store unchanged |
| Server.LoginWith | pkg/server/server.go:64-92 | a bad body is BadRequest; a failed lookup is classified; a found user whose hash does not match the password gets InvalidCredentials; a match answers an unauthenticated token, or the unexpected-error problem when signing fails; success requires a stored user whose hash matches |
| Server.Login | pkg/server/server.go:64-92 | with a valid body, an unknown username gets the username-not-found problem and a store failure is classified by GetProblemDetails; a wrong password gets InvalidCredentials; a matching password with a signed token answers that token |
| Server.LoginUniform | pkg/server/server.go:64-92 | with a valid body, an unknown username and a wrong password both get Invalid credentials |
| Server.UniformLookupProblem | pkg/server/server_test.go:357-399 | no rows answers Invalid credentials; other errors go through GetProblemDetails |
| Server.Setup2FAWith | pkg/server/server.go:96-138 | the store only grows and changes only on success; token failures pass through; an enabled user gets 401 with nothing changed; a failed 2FA lookup gets the unexpected-error problem with nothing changed; a user with 2FA off gets the URI of the base32 text of the random bytes; success stores base32 of the random bytes and answers its otpauth URI |
| Server.OtpAuthUri | pkg/server/server.go:131-135 | the URI starts with the issuer label and the username, and the secret reads back from between "?secret=" and "&issuer=GoAuth" |
| Server.SecretOrEmpty | pkg/server/server.go:155 | the stored secret when the lookup succeeds; the empty string when the store fails, the user is missing or has no secret |
| Server.Verify2FAWith | pkg/server/server.go:140-199 | the token is checked before the body; after a good token, a body that fails to decode is BadRequest with the decoder's message and the store unchanged; then the code is checked as CheckCode states; the store changes only on success; success means the code was accepted, answers an authenticated token and leaves 2FA enabled; the required-field check is a parameter |
| Server.CheckCode | pkg/server/server.go:168-198 | a failing authenticator, a signing error or a failed 2FA lookup gives the unexpected-error problem and a rejected code gives Unauthorized, each with the store unchanged; an accepted code with a signed token and a working lookup answers that authenticated token; the store changes only on success, and success leaves 2FA enabled |
| Server.EnableOrKeep | pkg/server/server.go:194-196 | enabling with the error dropped keeps the store growing and leaves an existing user enabled |
| Server.ShippedClaims | pkg/security/jwt.go:64-79 | behind the shipped validator an accepted token always yields the empty, unauthenticated claims |
| Server.Setup2FA | pkg/server/server.go:96-138 | the store only grows and changes only on success; a success is for the empty username and answers the URI of the new secret |
| Server.Verify2FA | pkg/server/server.go:140-199 | the store only grows and changes only on success; a success checked the code against the empty username's secret and signs a token for the empty username |
| Server.TestAuth | pkg/server/server.go:201-221 | never "Full access granted"; every problem is 401 |
| Server.TestAuthWith | pkg/server/server.go:201-221 | "Full access granted" exactly for a token whose claims say authenticated; every problem is 401 |
| Flows.CleanBodyPasses | pkg/server/jsonDecoder.go:40-108 | a well-formed, complete JSON body passes the validator |
| Flows.SignupThenLogin | pkg/server/server.go:30-92 | signing up and logging in with the same credentials succeeds and answers an unauthenticated token |
| Flows.DuplicateSignup | pkg/server/server.go:51-55 | a second sign-up with a taken username is 409 naming the username and changes nothing |
| Flows.SignupNamesAreNonEmpty | pkg/api/types.gen.go:51-61 | sign-up never stores the empty username |
| Flows.TestAuthNeverGrants | pkg/server/server.go:201-221 | the shipped TestAuth never answers "Full access granted" |
| Flows.Setup2FANeverSucceeds | pkg/server/server.go:105-115 | with no user named "", the shipped Setup2FA never succeeds and changes nothing |
| Flows.Setup2FASecret | pkg/server/server.go:122-137 | the secret is 16 base32 letters that decode to the random bytes, embedded in the exact otpauth URI |
| Flows.RejectedCodeChangesNothing | pkg/server/server.go:168-177 | a rejected one-time code is 401 and leaves the store as it was |
| Flows.CorrectedValidatorGrants | pkg/server/server.go:179-221 | with the claims-returning validator, the token from the 2FA step opens the protected endpoint; with the shipped one it does not |
| Flows.LoginTokenIsNotEnough | pkg/server/server.go:84-91 | the log-in token does not open the protected endpoint even with the corrected validator |
| Flows.LoginUnknownUserReported | pkg/server/problemDetails.go:117-128 | an unknown username at log-in gets "Entered username was not found", not Invalid credentials |
| Flows.LoginUniformHidesUnknownUsers | pkg/server/server_test.go:357-399 | with the uniform classification an unknown username and a wrong password both get Invalid credentials |

## Left out

- The JSON tokenizer (`encoding/json`) and the validator library are not modelled. The decode outcome is an input, and "required" is a completeness predicate on the request record.
- bcrypt hashing and comparison are abstract functions. The one property used is that a hash matches its password.
- HMAC-SHA256 signing, the base64url JWT encoding and the TOTP computation of `dgoogauth` (RFC 6238) are abstract library functions. The service only calls them.
- `crypto/rand` is not modelled. The key bytes and the ten secret bytes are inputs.
- Database plumbing, connection set-up and SQL are not modelled. The store is a map plus a failure switch. The four 2FA store calls have no SQL in the source, so their behaviour is assumed.
- HTTP serialisation is not modelled: `respondWithSuccess`, `respondWithError`, `respond.go` and the router. A reply is a datatype, not bytes.
- `app.go` and `dbRowModel.go` are not modelled. They are bootstrap code and a row formatter, outside the decision logic.
- Middleware.ContentTypeFilter: the 415 problem of the filter has an empty instance, as its code builds it. Its test expects the request path.
- Problems.Unauthorized: only the status and instance are stated, because the function is defined in no file.
- Strconv.Quote: escapes only quote, backslash, newline, tab and carriage return, not Go's full `%q` escape set for control and non-printable characters.
- Jwt.TokenErrorText: the library's error texts are stand-ins; no contract depends on them.
- Jwt.Parse: the JWT library's other registered claims (`nbf`, `iat`) and clock leeway are not modelled, because the service sets none of them.
- Server.Verify2FAWith: the `otp` field is an unbounded integer, because its declared width is not in the shown types.
- Server.Verify2FA: the generated `Verify2FARequest` type is not part of this model, so its `required` tags are unknown. The shipped handler takes every decoded record as complete (`Verify2FAComplete`); `Verify2FAWith` takes the check as a parameter, and its contracts hold for any check.
- Server.Setup2FAWith: the stored secret is stated only for a user who exists, because an update for a missing username changes nothing.
- The panic of the bearer split is a `Panic` reply rather than a crashed goroutine.

## Findings

| source | as written | input that shows it | evidently intended | confidence | as-written member | corrected member |
|---|---|---|---|---|---|---|
| pkg/security/jwt.go:64-79 | `ValidateToken` returns a claims record allocated before `jwt.Parse` and never passed to it, so every accepted token yields username "" and authenticated false | a token from `GenerateJWT("alice", true)` presented to `TestAuth` within five minutes | return the claims the token carries, so the token from the 2FA step grants full access | high, not executed | Jwt.ValidateToken, Jwt.ValidateTokenForgetsClaims, Flows.TestAuthNeverGrants | Jwt.ValidateTokenClaims, Jwt.IssuedTokenValidates, Flows.CorrectedValidatorGrants |
| pkg/server/server.go:73-76 | a failed lookup goes through `GetProblemDetails`, and `sql.ErrNoRows` becomes 401 "Entered username was not found" | log in as "James", a username not in the store | the same "Invalid credentials" answer as a wrong password, as the log-in test expects | medium, not executed | Server.Login, Flows.LoginUnknownUserReported | Server.LoginUniform, Flows.LoginUniformHidesUnknownUsers |

=== FILE: api.dfy ===
/** The request and response records of the HTTP API (the generated `api`
    package). A field tagged `validate:"required"` must not hold its zero
    value; `Complete` says when every required field is set. */
module Api {

  /** A problem details response, loosely following section 3.1 of
      RFC 7807. `problemType` is the Go field `Type`. */
  datatype ProblemDetails = ProblemDetails(
    statusCode: int,
    problemType: string,
    title: string,
    detail: string,
    instance: string)

  datatype SignupRequest = SignupRequest(email: string, password: string, username: string)

  datatype LoginRequest = LoginRequest(password: string, username: string)

  datatype Verify2FARequest = Verify2FARequest(otp: int)

  predicate SignupComplete(r: SignupRequest) {
    r.email != "" && r.password != "" && r.username != ""
  }

  predicate LoginComplete(r: LoginRequest) {
    r.password != "" && r.username != ""
  }

  /** The required-field check the shipped `Verify2FA` is modelled with.
      The generated request type is not part of this model; its one-time
      code is taken to carry no `required` tag, so every value is accepted,
      zero included. */
  predicate Verify2FAComplete(r: Verify2FARequest) {
    true
  }

  /** Bodies of successful responses. Signup answers 200 with no body. */
  datatype SuccessBody =
    | NoContent
    | LoginResponse(unauthToken: string)
    | Secret2FAResponse(qrUri: string)
    | VerifyResponse(accessToken: string)
    | Text(text: string)
}

=== FILE: base32.dfy ===
/** Base 32 encoding with the standard alphabet and `=` padding, section 6
    of RFC 4648, as `base32.StdEncoding.EncodeToString` computes it. Input is
    taken five bytes (40 bits) at a time; each block becomes eight characters
    of five bits each, and a final short block is zero-filled to a whole
    character and padded with `=` to eight characters.

    The model works on bit strings: bytes are spelled out most significant
    bit first, regrouped into five-bit digits, and each digit is looked up
    in the alphabet. `Decode` reverses the steps. */
module Base32 {
  import opened Wrappers

  const Alphabet: string := "ABCDEFGHIJKLMNOPQRSTUVWXYZ234567"
  const Pad: char := '='

  function Pow2(n: nat): (r: nat)
    ensures r >= 1
  {
    if n == 0 then 1 else 2 * Pow2(n - 1)
  }

  /** The low `w` bits of `n`, most significant first. */
  function Bits(n: nat, w: nat): (r: seq<bool>)
    ensures |r| == w
  {
    if w == 0 then [] else Bits(n / 2, w - 1) + [n % 2 == 1]
  }

  /** The number a bit string spells, most significant bit first. */
  function Value(bits: seq<bool>): (r: nat)
    ensures r < Pow2(|bits|)
  {
    if |bits| == 0 then 0
    else 2 * Value(bits[..|bits| - 1]) + (if bits[|bits| - 1] then 1 else 0)
  }

  lemma {:induction false} ValueOfBits(n: nat, w: nat)
    requires n < Pow2(w)
    ensures Value(Bits(n, w)) == n
  {
    if w > 0 {
      ValueOfBits(n / 2, w - 1);
      assert Bits(n, w)[..w - 1] == Bits(n / 2, w - 1);
    }
  }

  lemma {:induction false} BitsOfValue(bits: seq<bool>)
    ensures Bits(Value(bits), |bits|) == bits
  {
    if |bits| > 0 {
      var init := bits[..|bits| - 1];
      BitsOfValue(init);
      var b := if bits[|bits| - 1] then 1 else 0;
      assert (2 * Value(init) + b) / 2 == Value(init);
      assert init + [bits[|bits| - 1]] == bits;
    }
  }

  predicate Fits(ws: seq<nat>, w: nat) {
    forall i :: 0 <= i < |ws| ==> ws[i] < Pow2(w)
  }

  /** Words of `w` bits each, laid end to end. */
  function WordsToBits(ws: seq<nat>, w: nat): (r: seq<bool>)
    ensures |r| == w * |ws|
  {
    if |ws| == 0 then [] else Bits(ws[0], w) + WordsToBits(ws[1..], w)
  }

  /** A bit string cut into consecutive words of `w` bits; a shorter tail is
      dropped. */
  function BitsToWords(bits: seq<bool>, w: nat): (r: seq<nat>)
    requires w > 0
    ensures Fits(r, w)
    decreases |bits|
  {
    if |bits| < w then [] else [Value(bits[..w])] + BitsToWords(bits[w..], w)
  }

  lemma {:induction false} WordsRoundTrip(ws: seq<nat>, w: nat)
    requires w > 0 && Fits(ws, w)
    ensures BitsToWords(WordsToBits(ws, w), w) == ws
  {
    if |ws| > 0 {
      var bits := WordsToBits(ws, w);
      assert bits[..w] == Bits(ws[0], w);
      assert bits[w..] == WordsToBits(ws[1..], w);
      ValueOfBits(ws[0], w);
      WordsRoundTrip(ws[1..], w);
      assert [ws[0]] + ws[1..] == ws;
    }
  }

  lemma {:induction false} BitsRoundTrip(bits: seq<bool>, w: nat, n: nat)
    requires w > 0 && |bits| == w * n
    ensures WordsToBits(BitsToWords(bits, w), w) == bits
  {
    if n > 0 {
      MulPred(w, n);
      var head, rest := bits[..w], bits[w..];
      BitsRoundTrip(rest, w, n - 1);
      BitsOfValue(head);
      var ws := BitsToWords(bits, w);
      assert ws == [Value(head)] + BitsToWords(rest, w);
      assert ws[1..] == BitsToWords(rest, w);
      assert WordsToBits(ws, w) == head + rest;
      assert head + rest == bits;
    }
  }

  lemma MulPred(w: nat, n: nat)
    requires n > 0
    ensures w * n == w * (n - 1) + w
  {
  }

  /** The alphabet letter for a five-bit digit. */
  function Letter(d: nat): (c: char)
    requires d < 32
    ensures c == Alphabet[d]
    ensures IsLetter(c)
  {
    if d < 26 then ('A' as int + d) as char else ('2' as int + d - 26) as char
  }

  predicate IsLetter(c: char) {
    'A' <= c <= 'Z' || '2' <= c <= '7'
  }

  function LetterValue(c: char): (d: nat)
    requires IsLetter(c)
    ensures d < 32 && Letter(d) == c
  {
    if 'A' <= c <= 'Z' then c as int - 'A' as int else c as int - '2' as int + 26
  }

  /** Characters of output for a block of `n` bytes, before padding. */
  function DigitCount(n: nat): nat
    requires 1 <= n <= 5
  {
    (8 * n + 4) / 5
  }

  function Letters(ds: seq<nat>): (r: string)
    requires forall i :: 0 <= i < |ds| ==> ds[i] < 32
    ensures |r| == |ds|
    ensures forall i :: 0 <= i < |r| ==> r[i] == Letter(ds[i])
  {
    if |ds| == 0 then "" else [Letter(ds[0])] + Letters(ds[1..])
  }

  function Repeat(c: char, n: nat): (r: string)
    ensures |r| == n && forall i :: 0 <= i < n ==> r[i] == c
  {
    if n == 0 then "" else [c] + Repeat(c, n - 1)
  }

  function Falses(n: nat): (r: seq<bool>)
    ensures |r| == n
  {
    if n == 0 then [] else [false] + Falses(n - 1)
  }

  /** The five-bit digits of a block of one to five bytes: its bits,
      zero-filled to a whole number of digits. */
  function BlockDigits(b: seq<byte>): (ds: seq<nat>)
    requires 1 <= |b| <= 5
    ensures |ds| == DigitCount(|b|)
    ensures forall i :: 0 <= i < |ds| ==> ds[i] < 32
  {
    var nd := DigitCount(|b|);
    var padded := WordsToBits(b, 8) + Falses(5 * nd - 8 * |b|);
    BitsToWordsLength(padded, 5, nd);
    BitsToWords(padded, 5)
  }

  /** One block of one to five bytes as eight characters. */
  function EncodeBlock(b: seq<byte>): (r: string)
    requires 1 <= |b| <= 5
    ensures |r| == 8
  {
    Letters(BlockDigits(b)) + Repeat(Pad, 8 - DigitCount(|b|))
  }

  lemma {:induction false} BitsToWordsLength(bits: seq<bool>, w: nat, n: nat)
    requires w > 0 && |bits| == w * n
    ensures |BitsToWords(bits, w)| == n
  {
    if n > 0 {
      assert |bits[w..]| == w * (n - 1);
      BitsToWordsLength(bits[w..], w, n - 1);
    }
  }

  /** `base32.StdEncoding.EncodeToString`. */
  function Encode(b: seq<byte>): (r: string)
    ensures |r| == 8 * ((|b| + 4) / 5)
    decreases |b|
  {
    if |b| == 0 then ""
    else if |b| <= 5 then EncodeBlock(b)
    else
      assert (|b| + 4) / 5 == (|b[5..]| + 4) / 5 + 1;
      EncodeBlock(b[..5]) + Encode(b[5..])
  }

  /** Number of leading non-padding characters of a block. */
  function DataLength(block: string): (n: nat)
    ensures n <= |block|
    ensures forall i :: 0 <= i < n ==> block[i] != Pad
    ensures n < |block| ==> block[n] == Pad
  {
    if |block| == 0 || block[0] == Pad then 0 else 1 + DataLength(block[1..])
  }

  function LetterValues(s: string): (ds: seq<nat>)
    requires forall i :: 0 <= i < |s| ==> IsLetter(s[i])
    ensures |ds| == |s|
    ensures forall i :: 0 <= i < |ds| ==> ds[i] < 32
    ensures forall i :: 0 <= i < |ds| ==> Letter(ds[i]) == s[i]
  {
    if |s| == 0 then [] else [LetterValue(s[0])] + LetterValues(s[1..])
  }

  function ToBytes(ws: seq<nat>): (r: seq<byte>)
    requires Fits(ws, 8)
    ensures r == ws
  {
    assert Pow2(8) == 256;
    if |ws| == 0 then [] else [ws[0] as byte] + ToBytes(ws[1..])
  }

  /** The whole bytes spelled by a run of five-bit digits; leftover low bits
      are dropped. */
  function DigitsToBytes(ds: seq<nat>): (r: seq<byte>)
    ensures |r| == 5 * |ds| / 8
  {
    var bits := WordsToBits(ds, 5);
    var n := |bits| / 8;
    BitsToWordsLength(bits[..n * 8], 8, n);
    ToBytes(BitsToWords(bits[..n * 8], 8))
  }

  /** One eight-character block back to its bytes: the data characters must
      be alphabet letters followed only by padding, in one of the five
      lengths an encoder produces. */
  function DecodeBlock(block: string): (r: Option<seq<byte>>)
    requires |block| == 8
    ensures r.Some? ==> DataLength(block) in {2, 4, 5, 7, 8} && |r.value| == 5 * DataLength(block) / 8
  {
    var nd := DataLength(block);
    if nd !in {2, 4, 5, 7, 8} then None
    else if !(forall i :: nd <= i < 8 ==> block[i] == Pad) then None
    else if !(forall i :: 0 <= i < nd ==> IsLetter(block[i])) then None
    else Some(DigitsToBytes(LetterValues(block[..nd])))
  }

  /** Decoding as section 6 of RFC 4648 describes it (the unused low bits of
      a final partial block are not checked). */
  function Decode(s: string): (r: Option<seq<byte>>)
    ensures r.Some? ==> |s| % 8 == 0 && |r.value| <= 5 * (|s| / 8)
    decreases |s|
  {
    if |s| == 0 then Some([])
    else if |s| < 8 then None
    else
      match DecodeBlock(s[..8])
      case None => None
      case Some(head) =>
        match Decode(s[8..])
        case None => None
        case Some(tail) =>
          assert |head| <= 5;
          assert |s[8..]| / 8 + 1 == |s| / 8;
          Some(head + tail)
  }

  lemma LetterValuesOfLetters(ds: seq<nat>)
    requires forall i :: 0 <= i < |ds| ==> ds[i] < 32
    ensures LetterValues(Letters(ds)) == ds
  {
    var vs := LetterValues(Letters(ds));
    forall i | 0 <= i < |ds|
      ensures vs[i] == ds[i]
    {
      LetterInjective(vs[i], ds[i]);
    }
  }

  lemma LetterInjective(d: nat, e: nat)
    requires d < 32 && e < 32 && Letter(d) == Letter(e)
    ensures d == e
  {
  }

  /** A block of `n` bytes fills `DigitCount(n)` digits, and the whole bytes
      of those digits are exactly the `n` bytes. */
  lemma BlockBitCount(n: nat)
    requires 1 <= n <= 5
    ensures 8 * n <= 5 * DigitCount(n)
    ensures 5 * DigitCount(n) / 8 * 8 == 8 * n
  {
    if n == 1 {
      assert DigitCount(1) == 2;
    } else if n == 2 {
      assert DigitCount(2) == 4;
    } else if n == 3 {
      assert DigitCount(3) == 5;
    } else if n == 4 {
      assert DigitCount(4) == 7;
    } else {
      assert DigitCount(5) == 8;
    }
  }

  lemma BytesRoundTrip(b: seq<byte>)
    ensures ToBytes(BitsToWords(WordsToBits(b, 8), 8)) == b
  {
    assert Fits(b, 8) by { assert Pow2(8) == 256; }
    WordsRoundTrip(b, 8);
  }

  lemma DigitsToBytesOfBlock(b: seq<byte>)
    requires 1 <= |b| <= 5
    ensures DigitsToBytes(BlockDigits(b)) == b
  {
    var nd := DigitCount(|b|);
    BlockBitCount(|b|);
    var bits := WordsToBits(b, 8);
    var padded := bits + Falses(5 * nd - 8 * |b|);
    BitsRoundTrip(padded, 5, nd);
    var back := WordsToBits(BlockDigits(b), 5);
    assert back == padded;
    assert back[..|back| / 8 * 8] == bits;
    BytesRoundTrip(b);
  }

  /** The shape `DecodeBlock` checks: letters, then padding only, in one of
      the five lengths. */
  lemma BlockShape(b: seq<byte>)
    requires 1 <= |b| <= 5
    ensures var nd := DigitCount(|b|);
      var block := EncodeBlock(b);
      && DataLength(block) == nd
      && nd in {2, 4, 5, 7, 8}
      && (forall i :: nd <= i < 8 ==> block[i] == Pad)
      && (forall i :: 0 <= i < nd ==> IsLetter(block[i]))
      && block[..nd] == Letters(BlockDigits(b))
  {
    var nd := DigitCount(|b|);
    var ds := BlockDigits(b);
    var block := EncodeBlock(b);
    BlockBitCount(|b|);
    forall i | 0 <= i < nd
      ensures block[i] != Pad && IsLetter(block[i])
    {
      assert block[i] == Letter(ds[i]);
    }
    DataLengthOf(Letters(ds), 8 - nd);
  }

  lemma DecodeEncodeBlock(b: seq<byte>)
    requires 1 <= |b| <= 5
    ensures DecodeBlock(EncodeBlock(b)) == Some(b)
  {
    BlockShape(b);
    LetterValuesOfLetters(BlockDigits(b));
    DigitsToBytesOfBlock(b);
  }

  lemma {:induction false} DataLengthOf(letters: string, p: nat)
    requires forall i :: 0 <= i < |letters| ==> letters[i] != Pad
    ensures DataLength(letters + Repeat(Pad, p)) == |letters|
  {
    var s := letters + Repeat(Pad, p);
    if |letters| > 0 {
      assert s[1..] == letters[1..] + Repeat(Pad, p);
      DataLengthOf(letters[1..], p);
    } else if p > 0 {
      assert s[0] == Pad;
    }
  }

  /** Encoding loses nothing: decoding recovers the bytes. */
  lemma {:induction false} DecodeEncode(b: seq<byte>)
    ensures Decode(Encode(b)) == Some(b)
    decreases |b|
  {
    if 1 <= |b| <= 5 {
      var e := Encode(b);
      DecodeEncodeBlock(b);
      assert e[..8] == EncodeBlock(b) && e[8..] == "";
      assert b + [] == b;
    } else if |b| > 5 {
      var e := Encode(b);
      DecodeEncodeBlock(b[..5]);
      DecodeEncode(b[5..]);
      assert e[..8] == EncodeBlock(b[..5]) && e[8..] == Encode(b[5..]);
      assert b[..5] + b[5..] == b;
    }
  }

  /** Every character is a letter of the alphabet or `=`. */
  predicate LettersOrPad(s: string) {
    forall i :: 0 <= i < |s| ==> IsLetter(s[i]) || s[i] == Pad
  }

  /** Every character is a letter of the alphabet. */
  predicate LettersOnly(s: string) {
    forall i :: 0 <= i < |s| ==> IsLetter(s[i])
  }

  lemma ConcatCharacters(a: string, b: string)
    ensures LettersOrPad(a) && LettersOrPad(b) ==> LettersOrPad(a + b)
    ensures LettersOnly(a) && LettersOnly(b) ==> LettersOnly(a + b)
  {
    if LettersOrPad(a) && LettersOrPad(b) {
      forall i | 0 <= i < |a + b|
        ensures IsLetter((a + b)[i]) || (a + b)[i] == Pad
      {
        if i >= |a| {
          assert (a + b)[i] == b[i - |a|];
        }
      }
    }
    if LettersOnly(a) && LettersOnly(b) {
      forall i | 0 <= i < |a + b|
        ensures IsLetter((a + b)[i])
      {
        if i >= |a| {
          assert (a + b)[i] == b[i - |a|];
        }
      }
    }
  }

  /** Every character of an encoding is a letter of the alphabet or `=`, and
      `=` occurs only when the input length is not a multiple of five. */
  lemma {:induction false} EncodeCharacters(b: seq<byte>)
    ensures LettersOrPad(Encode(b))
    ensures |b| % 5 == 0 ==> LettersOnly(Encode(b))
    decreases |b|
  {
    if |b| > 5 {
      EncodeCharacters(b[5..]);
      EncodeStep(b);
    } else if |b| > 0 {
      EncodeOneBlock(b);
    }
  }

  lemma EncodeOneBlock(b: seq<byte>)
    requires 1 <= |b| <= 5
    ensures LettersOrPad(Encode(b))
    ensures |b| % 5 == 0 ==> LettersOnly(Encode(b))
  {
    EncodeShort(b);
    BlockCharacters(b);
    if |b| % 5 == 0 {
      FullBlock(|b|);
    }
  }

  lemma FullBlock(n: int)
    requires 1 <= n <= 5 && n % 5 == 0
    ensures n == 5
  {
  }

  /** Up to five bytes are one block. */
  lemma EncodeShort(b: seq<byte>)
    requires 1 <= |b| <= 5
    ensures Encode(b) == EncodeBlock(b)
  {
  }

  /** One block in front of an encoding keeps its character classes. */
  lemma EncodeStep(b: seq<byte>)
    requires |b| > 5
    requires LettersOrPad(Encode(b[5..]))
    requires |b[5..]| % 5 == 0 ==> LettersOnly(Encode(b[5..]))
    ensures LettersOrPad(Encode(b))
    ensures |b| % 5 == 0 ==> LettersOnly(Encode(b))
  {
    assert Encode(b) == EncodeBlock(b[..5]) + Encode(b[5..]);
    BlockCharacters(b[..5]);
    ConcatCharacters(EncodeBlock(b[..5]), Encode(b[5..]));
    SameRemainder(|b|);
  }

  lemma SameRemainder(n: int)
    requires n >= 5
    ensures (n - 5) % 5 == n % 5
  {
  }

  lemma BlockCharacters(b: seq<byte>)
    requires 1 <= |b| <= 5
    ensures LettersOrPad(EncodeBlock(b))
    ensures |b| == 5 ==> LettersOnly(EncodeBlock(b))
  {
    var ds := BlockDigits(b);
    var e := EncodeBlock(b);
    forall i | 0 <= i < |ds|
      ensures IsLetter(e[i])
    {
      assert e[i] == Letter(ds[i]);
    }
  }

  /** Ten random bytes, as a 2FA secret is made from, encode to sixteen
      alphabet letters with no padding. */
  lemma EncodeTenBytes(b: seq<byte>)
    requires |b| == 10
    ensures |Encode(b)| == 16
    ensures forall i :: 0 <= i < 16 ==> Encode(b)[i] in Alphabet
  {
    EncodeCharacters(b);
    forall i | 0 <= i < 16
      ensures Encode(b)[i] in Alphabet
    {
      assert Alphabet[LetterValue(Encode(b)[i])] == Encode(b)[i];
    }
  }

  // Bit order: the digits of a block are its bytes read as one number.

  /** The number a run of `w`-bit words spells, first word most
      significant. */
  function Number(ws: seq<nat>, w: nat): nat {
    if |ws| == 0 then 0 else ws[0] * Pow2(w * (|ws| - 1)) + Number(ws[1..], w)
  }

  lemma {:induction false} ValueAppend(a: seq<bool>, b: seq<bool>)
    ensures Value(a + b) == Value(a) * Pow2(|b|) + Value(b)
    decreases |b|
  {
    if |b| == 0 {
      assert a + b == a;
    } else {
      var init := b[..|b| - 1];
      var c := if b[|b| - 1] then 1 else 0;
      ValueAppend(a, init);
      assert (a + b)[..|a + b| - 1] == a + init;
      ShiftIn(Value(a), Pow2(|init|), Value(init), c);
    }
  }

  lemma ShiftIn(v: int, p: int, rest: int, c: int)
    ensures 2 * (v * p + rest) + c == v * (2 * p) + (2 * rest + c)
  {
  }

  lemma {:induction false} ValueOfFalses(n: nat)
    ensures Value(Falses(n)) == 0
  {
    if n > 0 {
      ValueOfFalses(n - 1);
      ValueAppend([false], Falses(n - 1));
    }
  }

  lemma {:induction false} ValueOfWords(ws: seq<nat>, w: nat)
    requires Fits(ws, w)
    ensures Value(WordsToBits(ws, w)) == Number(ws, w)
  {
    if |ws| > 0 {
      ValueOfWords(ws[1..], w);
      ValueAppend(Bits(ws[0], w), WordsToBits(ws[1..], w));
      ValueOfBits(ws[0], w);
    }
  }

  lemma BlockNumber(b: seq<byte>)
    requires 1 <= |b| <= 5
    ensures Number(BlockDigits(b), 5) == Number(b, 8) * Pow2(5 * DigitCount(|b|) - 8 * |b|)
  {
    var k := 5 * DigitCount(|b|) - 8 * |b|;
    BlockBits(b);
    DigitsFit(b);
    ValueOfWords(BlockDigits(b), 5);
    PaddedValue(WordsToBits(b, 8), k);
    BytesFit(b);
    ValueOfWords(b, 8);
  }

  /** Regrouping a block's digits gives back its bits and the zero fill. */
  lemma BlockBits(b: seq<byte>)
    requires 1 <= |b| <= 5
    ensures WordsToBits(BlockDigits(b), 5) == WordsToBits(b, 8) + Falses(5 * DigitCount(|b|) - 8 * |b|)
  {
    var padded := WordsToBits(b, 8) + Falses(5 * DigitCount(|b|) - 8 * |b|);
    PaddedLength(b);
    BlockDigitsOfPadded(b);
    Regroup(padded, DigitCount(|b|), BlockDigits(b));
  }

  /** A block's bits and zero fill make whole digits. */
  lemma PaddedLength(b: seq<byte>)
    requires 1 <= |b| <= 5
    ensures 8 * |b| <= 5 * DigitCount(|b|)
    ensures |WordsToBits(b, 8) + Falses(5 * DigitCount(|b|) - 8 * |b|)| == 5 * DigitCount(|b|)
  {
    BlockBitCount(|b|);
  }

  lemma BlockDigitsOfPadded(b: seq<byte>)
    requires 1 <= |b| <= 5
    ensures BlockDigits(b) == BitsToWords(WordsToBits(b, 8) + Falses(5 * DigitCount(|b|) - 8 * |b|), 5)
  {
  }

  lemma Regroup(bits: seq<bool>, n: nat, ds: seq<nat>)
    requires |bits| == 5 * n && ds == BitsToWords(bits, 5)
    ensures WordsToBits(ds, 5) == bits
  {
    BitsRoundTrip(bits, 5, n);
  }

  lemma DigitsFit(b: seq<byte>)
    requires 1 <= |b| <= 5
    ensures Fits(BlockDigits(b), 5)
  {
    assert Pow2(5) == 32;
  }

  lemma BytesFit(b: seq<byte>)
    ensures Fits(b, 8)
  {
    assert Pow2(8) == 256;
  }

  /** Zero fill on the right multiplies the value by a power of two. */
  lemma PaddedValue(bits: seq<bool>, k: nat)
    ensures Value(bits + Falses(k)) == Value(bits) * Pow2(k)
  {
    ValueAppend(bits, Falses(k));
    ValueOfFalses(k);
  }

  lemma {:induction false} Pow2Add(a: nat, b: nat)
    ensures Pow2(a + b) == Pow2(a) * Pow2(b)
    decreases a
  {
    if a > 0 {
      Pow2Add(a - 1, b);
    }
  }

  function Div(n: nat, p: nat): nat
    requires p >= 1
  {
    n / p
  }

  function Mod(n: nat, p: nat): (r: nat)
    requires p >= 1
    ensures r < p
  {
    n % p
  }

  /** `k` words of `w` bits that spell `n`, most significant first: word
      `i` is bits `w * (k - 1 - i)` and up of `n`. */
  function ToWords(n: nat, w: nat, k: nat): (r: seq<nat>)
    ensures |r| == k
  {
    if k == 0 then []
    else
      var p := Pow2(w * (k - 1));
      [Mod(Div(n, p), Pow2(w))] + ToWords(Mod(n, p), w, k - 1)
  }

  lemma {:induction false} NumberBound(ws: seq<nat>, w: nat)
    requires Fits(ws, w)
    ensures Number(ws, w) < Pow2(w * |ws|)
  {
    if |ws| > 0 {
      var p := Pow2(w * (|ws| - 1));
      NumberBound(ws[1..], w);
      assert Number(ws, w) < ws[0] * p + p;
      PowerStep(ws[0], w, |ws| - 1);
    }
  }

  /** A word below `2^w` in front of `k` more words stays below `2^(w(k+1))`. */
  lemma PowerStep(d: nat, w: nat, k: nat)
    requires d < Pow2(w)
    ensures d * Pow2(w * k) + Pow2(w * k) <= Pow2(w * (k + 1))
  {
    var p := Pow2(w * k);
    Pow2Add(w, w * k);
    assert w * (k + 1) == w + w * k;
    assert d * p + p == (d + 1) * p;
    MulMono(d + 1, Pow2(w), p);
  }

  lemma MulMono(x: nat, y: nat, p: nat)
    requires x <= y
    ensures x * p <= y * p
  {
  }

  lemma {:induction false} NumberToWords(ws: seq<nat>, w: nat)
    requires Fits(ws, w)
    ensures ToWords(Number(ws, w), w, |ws|) == ws
  {
    if |ws| > 0 {
      var p := Pow2(w * (|ws| - 1));
      NumberBound(ws[1..], w);
      var n := Number(ws, w);
      DivMod(ws[0], p, Number(ws[1..], w));
      DivMod(0, Pow2(w), ws[0]);
      assert Mod(Div(n, p), Pow2(w)) == ws[0];
      NumberToWords(ws[1..], w);
      assert ToWords(n, w, |ws|) == [ws[0]] + ToWords(Number(ws[1..], w), w, |ws| - 1);
      assert [ws[0]] + ws[1..] == ws;
    }
  }

  /** Dividing `d * p + rest` by `p` gives `d` back, and the remainder is
      `rest`. */
  lemma DivMod(d: nat, p: nat, rest: nat)
    requires rest < p
    ensures Div(d * p + rest, p) == d && Mod(d * p + rest, p) == rest
  {
    var x := d * p + rest;
    var q := x / p;
    var r := x % p;
    assert x == q * p + r;
    if q > d {
      MulAtLeast(q - d, p);
    } else if q < d {
      MulAtLeast(d - q, p);
    }
  }

  lemma MulAtLeast(k: int, p: nat)
    requires k >= 1
    ensures k * p >= p
  {
  }

  /** The digits of a block are the five-bit groups of its bytes read as
      one big-endian number, zero-filled on the right. */
  lemma BlockDigitsSpell(b: seq<byte>)
    requires 1 <= |b| <= 5
    ensures BlockDigits(b) == ToWords(Number(b, 8) * Pow2(5 * DigitCount(|b|) - 8 * |b|), 5, DigitCount(|b|))
  {
    BlockNumber(b);
    assert Pow2(5) == 32;
    NumberToWords(BlockDigits(b), 5);
  }

  lemma NumberCons(d: nat, ws: seq<nat>, w: nat)
    ensures Number([d] + ws, w) == d * Pow2(w * |ws|) + Number(ws, w)
  {
    assert ([d] + ws)[1..] == ws;
  }

  /** Two runs of words of the same length and width that spell the same
      number are the same run. */
  lemma NumberInjective(a: seq<nat>, b: seq<nat>, w: nat)
    requires Fits(a, w) && Fits(b, w) && |a| == |b|
    requires Number(a, w) == Number(b, w)
    ensures a == b
  {
    NumberToWords(a, w);
    NumberToWords(b, w);
  }

  lemma Pow2Values()
    ensures Pow2(0) == 1 && Pow2(2) == 4 && Pow2(5) == 32 && Pow2(8) == 256
    ensures Pow2(10) == 1024 && Pow2(15) == 32768 && Pow2(16) == 65536 && Pow2(20) == 1048576
    ensures Pow2(24) == 16777216 && Pow2(25) == 33554432 && Pow2(30) == 1073741824
    ensures Pow2(32) == 4294967296 && Pow2(35) == 34359738368
  {
    Pow2Add(5, 5);
    Pow2Add(10, 5);
    Pow2Add(8, 8);
    Pow2Add(10, 10);
    Pow2Add(16, 8);
    Pow2Add(20, 5);
    Pow2Add(20, 10);
    Pow2Add(16, 16);
    Pow2Add(30, 5);
  }

  /** The test vectors of section 10 of RFC 4648 ("f" and "foobar"),
      through the block digits. */
  lemma FoobaNumber(b: seq<nat>)
    requires b == [102, 111, 111, 98, 97]
    ensures Number(b, 8) == 439956234849
  {
    Pow2Values();
    NumberCons(97, [], 8);
    NumberCons(98, [97], 8);
    NumberCons(111, [98, 97], 8);
    NumberCons(111, [111, 98, 97], 8);
    NumberCons(102, [111, 111, 98, 97], 8);
  }

  lemma FoobaLetters(e: seq<nat>)
    requires e == [12, 25, 23, 22, 30, 24, 19, 1]
    ensures Number(e, 5) == 439956234849
  {
    Pow2Values();
    NumberCons(1, [], 5);
    NumberCons(19, [1], 5);
    NumberCons(24, [19, 1], 5);
    NumberCons(30, [24, 19, 1], 5);
    NumberCons(22, [30, 24, 19, 1], 5);
    NumberCons(23, [22, 30, 24, 19, 1], 5);
    NumberCons(25, [23, 22, 30, 24, 19, 1], 5);
    NumberCons(12, [25, 23, 22, 30, 24, 19, 1], 5);
  }

  /** The digits of a block are the run of five-bit words that spells the
      block's number shifted over the zero fill. */
  lemma DigitsOfNumber(b: seq<byte>, e: seq<nat>)
    requires 1 <= |b| <= 5 && |e| == DigitCount(|b|) && Fits(e, 5)
    requires Number(e, 5) == Number(b, 8) * Pow2(5 * DigitCount(|b|) - 8 * |b|)
    ensures BlockDigits(b) == e
  {
    BlockNumber(b);
    DigitsFit(b);
    NumberInjective(BlockDigits(b), e, 5);
  }

  lemma FoobaDigits(b: seq<byte>, e: seq<nat>)
    requires b == [102, 111, 111, 98, 97] && e == [12, 25, 23, 22, 30, 24, 19, 1]
    ensures BlockDigits(b) == e
  {
    DigitsBelow32(e);
    assert DigitCount(5) == 8 && Pow2(0) == 1;
    FoobaNumber(b);
    FoobaLetters(e);
    DigitsOfNumber(b, e);
  }

  lemma DigitsBelow32(e: seq<nat>)
    requires forall i :: 0 <= i < |e| ==> e[i] < 32
    ensures Fits(e, 5)
  {
    assert Pow2(5) == 32;
  }

  lemma RDigits(b: seq<byte>)
    requires b == [114]
    ensures BlockDigits(b) == [14, 8]
  {
    assert DigitCount(1) == 2;
    Pow2Values();
    NumberCons(114, [], 8);
    NumberCons(8, [], 5);
    NumberCons(14, [8], 5);
    DigitsOfNumber(b, [14, 8]);
  }

  lemma RfcVectorF(b: seq<byte>)
    requires b == [102]
    ensures Encode(b) == "MY======"
  {
    assert DigitCount(1) == 2;
    Pow2Values();
    NumberCons(102, [], 8);
    NumberCons(24, [], 5);
    NumberCons(12, [24], 5);
    DigitsOfNumber(b, [12, 24]);
  }

  lemma FoobaBlock(b: seq<byte>)
    requires b == [102, 111, 111, 98, 97]
    ensures EncodeBlock(b) == "MZXW6YTB"
  {
    var e: seq<nat> := [12, 25, 23, 22, 30, 24, 19, 1];
    FoobaDigits(b, e);
    assert DigitCount(5) == 8;
    FoobaText(e);
    assert Repeat(Pad, 0) == "";
  }

  lemma FoobaText(e: seq<nat>)
    requires e == [12, 25, 23, 22, 30, 24, 19, 1]
    ensures Letters(e) == "MZXW6YTB"
  {
    LettersOfEight(e, "MZXW6YTB");
  }

  /** Eight digits spell a text when each digit's letter is the text's
      character at that place. */
  lemma LettersOfEight(e: seq<nat>, t: string)
    requires |e| == 8 && |t| == 8
    requires forall i :: 0 <= i < 8 ==> e[i] < 32 && Letter(e[i]) == t[i]
    ensures Letters(e) == t
  {
  }

  lemma RBlock(b: seq<byte>)
    requires b == [114]
    ensures Encode(b) == "OI======"
  {
    RDigits(b);
    assert DigitCount(1) == 2;
    EncodeShort(b);
    RText([14, 8]);
  }

  lemma RText(e: seq<nat>)
    requires e == [14, 8]
    ensures Letters(e) + Repeat(Pad, 6) == "OI======"
  {
    assert Letters(e) == "OI";
  }

  lemma RfcVectorFoobar(b: seq<byte>)
    requires b == [102, 111, 111, 98, 97, 114]
    ensures Encode(b) == "MZXW6YTBOI======"
  {
    FoobarHalves(b);
    FoobaBlock(b[..5]);
    RBlock(b[5..]);
    JoinBlocks(b, "MZXW6YTB", "OI======");
    FoobarText();
  }

  lemma FoobarHalves(b: seq<byte>)
    requires b == [102, 111, 111, 98, 97, 114]
    ensures b[..5] == [102, 111, 111, 98, 97] && b[5..] == [114]
  {
  }

  lemma FoobarText()
    ensures "MZXW6YTB" + "OI======" == "MZXW6YTBOI======"
  {
  }

  lemma JoinBlocks(b: seq<byte>, x: string, y: string)
    requires |b| > 5 && EncodeBlock(b[..5]) == x && Encode(b[5..]) == y
    ensures Encode(b) == x + y
  {
    EncodeSplit(b);
  }

  /** Past five bytes, the first block is encoded on its own. */
  lemma EncodeSplit(b: seq<byte>)
    requires |b| > 5
    ensures Encode(b) == EncodeBlock(b[..5]) + Encode(b[5..])
  {
  }
}

=== FILE: consts.dfy ===
/** Header names and values shared by the handlers, the request decoder
    and the middleware (the `consts` package), and the HTTP status codes
    the core answers with (Go's `net/http` constants). */
module Consts {
  const ContentType: string := "Content-Type"
  const ApplicationJson: string := "application/json"
  const Authorization: string := "Authorization"
  const BearerPrefix: string := "Bearer "

  const StatusOK: int := 200
  const StatusBadRequest: int := 400
  const StatusUnauthorized: int := 401
  const StatusConflict: int := 409
  const StatusRequestEntityTooLarge: int := 413
  const StatusUnsupportedMediaType: int := 415
  const StatusInternalServerError: int := 500
}

=== FILE: content_type.dfy ===
/** `ContentTypeFilter`: the middleware that lets a request through to the
    next handler only when its `Content-Type` header is exactly
    `application/json`. */
module Middleware {
  import opened Api
  import Consts
  import JsonDecoder

  /** The filter either hands the untouched request on or answers itself. */
  datatype Filtered<R> = Forwarded(request: R) | Rejected(problem: ProblemDetails)

  /** The filter's answer. It sets no `instance`. */
  const NotJsonProblem: ProblemDetails :=
    ProblemDetails(Consts.StatusUnsupportedMediaType, "bad.request", "Bad request", JsonDecoder.NotJsonMsg, "")

  /** An absent header reads as the empty string. */
  function ContentTypeFilter<R>(contentType: string, request: R): (r: Filtered<R>)
    ensures r.Forwarded? <==> contentType == Consts.ApplicationJson
    ensures r.Forwarded? ==> r.request == request
    ensures r.Rejected? ==>
      && r.problem.statusCode == Consts.StatusUnsupportedMediaType
      && r.problem.detail == "Content-Type header is not application/json"
      && r.problem.title == "Bad request"
      && r.problem.problemType == "bad.request"
  {
    if contentType != Consts.ApplicationJson then Rejected(NotJsonProblem) else Forwarded(request)
  }

  /** The filter and the decoder's first check agree: the filter rejects
      exactly the requests the decoder would answer 415, with the same
      message. */
  lemma FilterMatchesDecoder<R, T>(contentType: string, request: R, p: JsonDecoder.Payload<T>, complete: T -> bool)
    ensures ContentTypeFilter(contentType, request).Rejected? <==>
      JsonDecoder.DecodeJsonBody(contentType, p, complete).Fail?
      && JsonDecoder.DecodeJsonBody(contentType, p, complete).error.status == Consts.StatusUnsupportedMediaType
    ensures ContentTypeFilter(contentType, request).Rejected? ==>
      ContentTypeFilter(contentType, request).problem.detail == JsonDecoder.DecodeJsonBody(contentType, p, complete).error.msg
  {
  }

  /** Behind the filter the decoder never answers 415. */
  lemma ForwardedNeverUnsupported<R, T>(contentType: string, request: R, p: JsonDecoder.Payload<T>, complete: T -> bool)
    requires ContentTypeFilter(contentType, request).Forwarded?
    ensures JsonDecoder.DecodeJsonBody(contentType, p, complete).Fail? ==>
      JsonDecoder.DecodeJsonBody(contentType, p, complete).error.status != Consts.StatusUnsupportedMediaType
  {
  }

  /** The header values of the repository's middleware tests. */
  lemma PinnedFilter<R>(request: R)
    ensures ContentTypeFilter("", request) == Rejected(NotJsonProblem)
    ensures ContentTypeFilter("textPlain", request) == Rejected(NotJsonProblem)
    ensures ContentTypeFilter("application/json", request) == Forwarded(request)
  {
  }
}

=== FILE: errors.dfy ===
/** The Go `error` values the core tells apart. The classifier inspects an
    error by its dynamic type (`malformedRequest`, `*mysql.MySQLError`) or
    by identity (`sql.ErrNoRows`); anything else is known only by its text. */
module Errors {

  /** `mysql.MySQLError.Number` is a `uint16`. */
  type uint16 = n: int | 0 <= n < 0x1_0000

  datatype MalformedRequest = MalformedRequest(status: int, msg: string)

  datatype Error =
    | Malformed(m: MalformedRequest)
    | MySql(number: uint16, message: string)
    | NoRows
    | Other(text: string)

  /** MySQL's error number for a violated unique key. */
  const ErDupEntry: uint16 := 1062
}

=== FILE: flows.dfy ===
/** Properties that span several handler calls: a user signs up, logs in,
    sets up and verifies the second factor, then reaches the protected
    endpoint; and what the shipped token check does to that sequence. */
module Flows {
  import opened Wrappers
  import opened Strings
  import opened Errors
  import opened Api
  import Consts
  import JsonDecoder
  import Problems
  import Jwt
  import Store
  import Base32
  import Server
  import Strconv

  /** A well-formed JSON body as the decoder reports it. */
  function CleanBody<T>(value: T): JsonDecoder.Payload<T> {
    JsonDecoder.Payload(JsonDecoder.Decoded, value, JsonDecoder.Failed(JsonDecoder.Eof))
  }

  function JsonRequest<T>(path: string, value: T): Server.Request<T> {
    Server.Request(path, Consts.ApplicationJson, "", CleanBody(value))
  }

  function BearerRequest<T>(path: string, token: string, body: JsonDecoder.Payload<T>): Server.Request<T> {
    Server.Request(path, Consts.ApplicationJson, Consts.BearerPrefix + token, body)
  }

  /** A clean body passes the decoder exactly when the record is complete. */
  lemma CleanBodyPasses<T>(value: T, complete: T -> bool)
    requires complete(value)
    ensures JsonDecoder.DecodeJsonBody(Consts.ApplicationJson, CleanBody(value), complete) == Outcome.Pass
  {
  }

  /** Sign-up then log-in with the same credentials: the user is stored
      with a hash of the password, and the log-in answers a token that is
      not yet authenticated. */
  lemma SignupThenLogin(env: Server.Env, db: Store.Db, email: string, password: string, username: string, path: string)
    requires Server.HashCoherent(env)
    requires db.fault.None? && username !in db.users && !Store.EmailTaken(db, email)
    requires SignupComplete(SignupRequest(email, password, username))
    requires env.encrypt(password).Success?
    requires Jwt.GenerateJwt(env.jose, username, false, env.now).err.None?
    ensures var s := Server.Signup(env, JsonRequest(path, SignupRequest(email, password, username)), db);
      && s.reply == Server.Ok(NoContent)
      && Server.Login(env, JsonRequest(path, LoginRequest(password, username)), s.db)
         == Server.Ok(LoginResponse(Jwt.GenerateJwt(env.jose, username, false, env.now).token))
  {
    var signup := JsonRequest(path, SignupRequest(email, password, username));
    CleanBodyPasses(SignupRequest(email, password, username), SignupComplete);
    var s := Server.Signup(env, signup, db);
    var hash := env.encrypt(password).value;
    assert s.db.users[username] == Store.User(email, hash, None, false);
    assert env.matches(hash, password);
    CleanBodyPasses(LoginRequest(password, username), LoginComplete);
  }

  /** A second sign-up under a taken username is a 409 naming the username,
      and the store is unchanged. */
  lemma DuplicateSignup(env: Server.Env, db: Store.Db, email: string, password: string, username: string, path: string)
    requires db.fault.None? && username in db.users
    requires SignupComplete(SignupRequest(email, password, username))
    requires env.encrypt(password).Success?
    requires Problems.PlainEntry(username)
    ensures var s := Server.Signup(env, JsonRequest(path, SignupRequest(email, password, username)), db);
      && s.db == db
      && s.reply == Server.Problem(ProblemDetails(Consts.StatusConflict, "username.already_exists",
           "Username already exists", "Username '" + username + "' already exists", path))
  {
    CleanBodyPasses(SignupRequest(email, password, username), SignupComplete);
    Problems.UsernameClash(username, path);
  }

  /** The shipped `TestAuth` never grants access: whatever token it is
      shown, the claims it gets back say not authenticated. */
  lemma TestAuthNeverGrants(env: Server.Env, req: Server.Request<()>)
    ensures !Server.TestAuth(env, req).Ok?
  {
    var a := Server.Authorize(Server.ShippedValidator(env), req.path, req.authorization);
    if a.Success? {
      var t := Server.BearerToken(req.authorization).token;
      assert Server.ShippedValidator(env)(t) == Jwt.ValidateToken(env.jose, t, env.now);
    }
  }

  /** The shipped `Setup2FA` cannot succeed either: the claims name the
      empty username, which no sign-up can create, so the 2FA lookup fails
      and the answer is a 500 (or the 401/panic of the token prologue). */
  lemma Setup2FANeverSucceeds(env: Server.Env, req: Server.Request<()>, random: seq<byte>, db: Store.Db)
    requires |random| == 10
    requires "" !in db.users
    ensures Server.Setup2FA(env, req, random, db).db == db
    ensures !Server.Setup2FA(env, req, random, db).reply.Ok?
  {
    var v := Server.ShippedValidator(env);
    var a := Server.Authorize(v, req.path, req.authorization);
    if a.Success? {
      var t := Server.BearerToken(req.authorization).token;
      assert v(t) == Jwt.ValidateToken(env.jose, t, env.now);
      assert a.value.username == "";
    }
  }

  /** Sign-up never stores a user with an empty name. */
  lemma SignupNamesAreNonEmpty(env: Server.Env, req: Server.Request<SignupRequest>, db: Store.Db)
    requires "" !in db.users
    ensures "" !in Server.Signup(env, req, db).db.users
  {
  }

  /** The 2FA secret: sixteen letters of the base32 alphabet, no padding,
      that decode back to the ten random bytes, stored for the user and
      embedded in the `otpauth` URI. */
  lemma Setup2FASecret(validate: Server.Validator, req: Server.Request<()>, random: seq<byte>, db: Store.Db)
    requires |random| == 10
    requires Server.Setup2FAWith(validate, req, random, db).reply.Ok?
    ensures var secret := Base32.Encode(random);
      var c := Server.Authorize(validate, req.path, req.authorization).value;
      && |secret| == 16
      && (forall i :: 0 <= i < 16 ==> secret[i] in Base32.Alphabet)
      && Base32.Decode(secret) == Some(random)
      && Server.Setup2FAWith(validate, req, random, db).reply.body
         == Secret2FAResponse("otpauth://totp/GoAuth:" + c.username + "?secret=" + secret + "&issuer=GoAuth")
  {
    Base32.EncodeTenBytes(random);
    Base32.DecodeEncode(random);
  }

  /** A rejected one-time code is a 401 and leaves the 2FA flag as it was. */
  lemma RejectedCodeChangesNothing(env: Server.Env, validate: Server.Validator, complete: Verify2FARequest -> bool,
                                   req: Server.Request<Verify2FARequest>, db: Store.Db)
    requires Server.Authorize(validate, req.path, req.authorization).Success?
    requires JsonDecoder.DecodeJsonBody(req.contentType, req.body, complete).Pass?
    requires var c := Server.Authorize(validate, req.path, req.authorization).value;
      env.authenticate(Server.OtpConfig(Server.SecretOrEmpty(db, c.username), Server.OtpWindowSize, 0),
                       Strconv.FormatInt(req.body.value.otp)) == Success(false)
    ensures Server.Verify2FAWith(env, validate, complete, req, db) == Server.Step(Server.Problem(Problems.Unauthorized(req.path)), db)
  {
  }

  /** With a validator that returns the token's own claims, the token the
      2FA step issues opens the protected endpoint until it expires. */
  lemma CorrectedValidatorGrants(env: Server.Env, username: string, issuedAt: int, path: string)
    requires Jwt.Coherent(env.jose)
    requires Jwt.GenerateJwt(env.jose, username, true, issuedAt).err.None?
    requires env.now <= issuedAt + Jwt.ExpirationSeconds
    requires !Contains(Jwt.GenerateJwt(env.jose, username, true, issuedAt).token, Consts.BearerPrefix)
    ensures var t := Jwt.GenerateJwt(env.jose, username, true, issuedAt).token;
      && Server.TestAuthWith(Server.ClaimsValidator(env), BearerRequest(path, t, CleanBody(()))) == Server.Ok(Text(Server.FullAccess))
      && !Server.TestAuth(env, BearerRequest(path, t, CleanBody(()))).Ok?
  {
    var t := Jwt.GenerateJwt(env.jose, username, true, issuedAt).token;
    var req := BearerRequest(path, t, CleanBody(()));
    Server.BearerOfStandardHeader(t);
    Jwt.IssuedTokenValidates(env.jose, username, true, issuedAt, env.now);
    assert Server.ClaimsValidator(env)(t) == Success(Jwt.Claims(username, true, issuedAt + Jwt.ExpirationSeconds));
    TestAuthNeverGrants(env, req);
  }

  /** A token from `Login` does not open the protected endpoint, even with
      the corrected validator: it is not authenticated. */
  lemma LoginTokenIsNotEnough(env: Server.Env, username: string, issuedAt: int, path: string)
    requires Jwt.Coherent(env.jose)
    requires Jwt.GenerateJwt(env.jose, username, false, issuedAt).err.None?
    requires env.now <= issuedAt + Jwt.ExpirationSeconds
    requires !Contains(Jwt.GenerateJwt(env.jose, username, false, issuedAt).token, Consts.BearerPrefix)
    ensures var t := Jwt.GenerateJwt(env.jose, username, false, issuedAt).token;
      Server.TestAuthWith(Server.ClaimsValidator(env), BearerRequest(path, t, CleanBody(())))
        == Server.Problem(Problems.Unauthorized(path))
  {
    var t := Jwt.GenerateJwt(env.jose, username, false, issuedAt).token;
    Server.BearerOfStandardHeader(t);
    Jwt.IssuedTokenValidates(env.jose, username, false, issuedAt, env.now);
    assert Server.ClaimsValidator(env)(t) == Success(Jwt.Claims(username, false, issuedAt + Jwt.ExpirationSeconds));
  }

  /** As written, logging in with an unknown username answers the
      username-not-found problem, which tells it apart from a wrong
      password. */
  lemma LoginUnknownUserReported(env: Server.Env, password: string, username: string, path: string, db: Store.Db)
    requires LoginComplete(LoginRequest(password, username))
    requires db.fault.None? && username !in db.users
    ensures var r := Server.Login(env, JsonRequest(path, LoginRequest(password, username)), db);
      && r == Server.Problem(Problems.SqlNoRows(path))
      && r.problem.title == "Entered username was not found"
      && r != Server.Problem(Problems.InvalidCredentials(path))
  {
    CleanBodyPasses(LoginRequest(password, username), LoginComplete);
  }

  /** With the uniform classification an unknown username and a wrong
      password get the same answer. */
  lemma LoginUniformHidesUnknownUsers(env: Server.Env, password: string, username: string, path: string,
                                      db: Store.Db, other: string)
    requires LoginComplete(LoginRequest(password, username)) && LoginComplete(LoginRequest(password, other))
    requires db.fault.None? && username !in db.users
    requires other in db.users && !env.matches(db.users[other].passwordHash, password)
    ensures Server.LoginUniform(env, JsonRequest(path, LoginRequest(password, username)), db)
      == Server.LoginUniform(env, JsonRequest(path, LoginRequest(password, other)), db)
      == Server.Problem(Problems.InvalidCredentials(path))
  {
    CleanBodyPasses(LoginRequest(password, username), LoginComplete);
    CleanBodyPasses(LoginRequest(password, other), LoginComplete);
  }
}

=== FILE: json_decoder.dfy ===
/** `decodeJSONBody`: strict validation of a JSON request body, reporting
    only the first failure as a `malformedRequest` with an exact message.

    The JSON tokenizer itself (`encoding/json`) is not modelled. What the
    validator sees of it is a `Payload`: the outcome of the first `Decode`
    into the target record, the record as that call left it, and the
    outcome of the second `Decode` that looks for trailing data. */
module JsonDecoder {
  import opened Wrappers
  import opened Strings
  import opened Strconv
  import opened Errors
  import Consts

  /** Largest accepted body, in bytes (`http.MaxBytesReader` limit). */
  const MaxSize: nat := 128

  /** The errors `json.Decoder.Decode` can report, as far as the validator
      distinguishes them. */
  datatype DecodeError =
    | SyntaxError(offset: nat)                       // *json.SyntaxError
    | UnexpectedEof                                  // io.ErrUnexpectedEOF
    | UnmarshalTypeError(field: string, offset: nat) // *json.UnmarshalTypeError
    | Eof                                            // io.EOF: nothing to decode
    | Plain(text: string)                            // any other error, by its text

  datatype DecodeStep = Decoded | Failed(err: DecodeError)

  datatype Payload<T> = Payload(first: DecodeStep, value: T, second: DecodeStep)

  const UnknownFieldPrefix: string := "json: unknown field "
  const TooLargeText: string := "http: request body too large"

  /** The error `DisallowUnknownFields` raises; `quotedName` is the field
      name as `encoding/json` quotes it. */
  function UnknownField(quotedName: string): DecodeError {
    Plain(UnknownFieldPrefix + quotedName)
  }

  /** The error `http.MaxBytesReader` raises once the body passes `MaxSize`. */
  const BodyTooLarge: DecodeError := Plain(TooLargeText)

  const NotJsonMsg: string := "Content-Type header is not application/json"
  const NotSingleMsg: string := "Request body must only contain a single JSON object"
  const IncompleteMsg: string := "Request body is not complete"

  /** The two openings every diagnostic of the decode step starts with. */
  const ContainsHead: string := "Request body contains "
  const MustNotHead: string := "Request body must not "

  const BadlyFormedMsg: string := ContainsHead + "badly-formed JSON"
  const UnknownFieldMsg: string := ContainsHead + "unknown field "
  const InvalidValueHead: string := ContainsHead + "an invalid value for the "
  const EmptyMsg: string := MustNotHead + "be empty"

  const PositionHead: string := BadlyFormedMsg + " (at position "
  const FieldPositionSep: string := " field (at position "

  function BadlyFormedAtMsg(offset: nat): string {
    PositionHead + FormatNat(offset) + ")"
  }

  function InvalidValueMsg(field: string, offset: nat): string {
    InvalidValueHead + Quote(field) + FieldPositionSep + FormatNat(offset) + ")"
  }

  function TooLargeMsg(): string {
    MustNotHead + "be larger than " + FormatNat(MaxSize) + "B"
  }

  /** The `switch` on the first decode error. An error matching no case
      yields `None`: the switch has no default, so control falls through to
      the trailing-data check. */
  function ClassifyDecodeError(e: DecodeError): (r: Option<MalformedRequest>)
    ensures r.Some? ==> r.value.status in {Consts.StatusBadRequest, Consts.StatusRequestEntityTooLarge}
    ensures r.Some? && r.value.status == Consts.StatusRequestEntityTooLarge <==> e == BodyTooLarge
    ensures r.None? <==> e.Plain? && !HasPrefix(e.text, UnknownFieldPrefix) && e.text != TooLargeText
    ensures e.SyntaxError? ==> r == Some(MalformedRequest(Consts.StatusBadRequest, BadlyFormedAtMsg(e.offset)))
    ensures e.UnexpectedEof? ==> r == Some(MalformedRequest(Consts.StatusBadRequest, BadlyFormedMsg))
    ensures e.UnmarshalTypeError? ==>
      r == Some(MalformedRequest(Consts.StatusBadRequest, InvalidValueMsg(e.field, e.offset)))
    ensures e.Eof? ==> r == Some(MalformedRequest(Consts.StatusBadRequest, EmptyMsg))
    ensures e.Plain? && HasPrefix(e.text, UnknownFieldPrefix) ==>
      r == Some(MalformedRequest(Consts.StatusBadRequest, UnknownFieldMsg + e.text[|UnknownFieldPrefix|..]))
    ensures e == BodyTooLarge ==> r == Some(MalformedRequest(Consts.StatusRequestEntityTooLarge, TooLargeMsg()))
  {
    match e
    case SyntaxError(offset) => Some(MalformedRequest(Consts.StatusBadRequest, BadlyFormedAtMsg(offset)))
    case UnexpectedEof => Some(MalformedRequest(Consts.StatusBadRequest, BadlyFormedMsg))
    case UnmarshalTypeError(field, offset) =>
      Some(MalformedRequest(Consts.StatusBadRequest, InvalidValueMsg(field, offset)))
    case Eof => Some(MalformedRequest(Consts.StatusBadRequest, EmptyMsg))
    case Plain(text) =>
      if HasPrefix(text, UnknownFieldPrefix) then
        assert text[0] == 'j' != TooLargeText[0];
        Some(MalformedRequest(Consts.StatusBadRequest, UnknownFieldMsg + TrimPrefix(text, UnknownFieldPrefix)))
      else if text == TooLargeText then
        Some(MalformedRequest(Consts.StatusRequestEntityTooLarge, TooLargeMsg()))
      else None
  }

  /** `decodeJSONBody`: content type, then the decode, then trailing data,
      then required fields; the first failure is the answer. `complete`
      stands for `validator.Struct` on the target record. */
  function DecodeJsonBody<T>(contentType: string, p: Payload<T>, complete: T -> bool): (r: Outcome<MalformedRequest>)
    ensures r.Fail? ==>
      r.error.status in {Consts.StatusBadRequest, Consts.StatusRequestEntityTooLarge, Consts.StatusUnsupportedMediaType}
    ensures r.Fail? && r.error.status == Consts.StatusUnsupportedMediaType <==> contentType != Consts.ApplicationJson
    ensures contentType != Consts.ApplicationJson ==> r.error.msg == NotJsonMsg
    ensures r.Fail? && r.error.status == Consts.StatusRequestEntityTooLarge <==>
      contentType == Consts.ApplicationJson && p.first == Failed(BodyTooLarge)
    ensures contentType == Consts.ApplicationJson && p.first.Failed? && ClassifyDecodeError(p.first.err).Some? ==>
      r == Fail(ClassifyDecodeError(p.first.err).value)
    ensures contentType == Consts.ApplicationJson && !(p.first.Failed? && ClassifyDecodeError(p.first.err).Some?) ==>
      && (p.second != Failed(Eof) ==> r == Fail(MalformedRequest(Consts.StatusBadRequest, NotSingleMsg)))
      && (p.second == Failed(Eof) && !complete(p.value) ==>
            r == Fail(MalformedRequest(Consts.StatusBadRequest, IncompleteMsg)))
  {
    if contentType != Consts.ApplicationJson then
      Fail(MalformedRequest(Consts.StatusUnsupportedMediaType, NotJsonMsg))
    else if p.first.Failed? && ClassifyDecodeError(p.first.err).Some? then
      Fail(ClassifyDecodeError(p.first.err).value)
    else if p.second != Failed(Eof) then
      Fail(MalformedRequest(Consts.StatusBadRequest, NotSingleMsg))
    else if !complete(p.value) then
      Fail(MalformedRequest(Consts.StatusBadRequest, IncompleteMsg))
    else
      Pass
  }

  /** The four checks, in the order the validator runs them. */
  datatype Stage = ContentTypeCheck | BodyDecode | TrailingData | RequiredFields

  function Rank(s: Stage): nat {
    match s
    case ContentTypeCheck => 0
    case BodyDecode => 1
    case TrailingData => 2
    case RequiredFields => 3
  }

  /** When each check, taken on its own, rejects the request. */
  predicate StageFails<T>(s: Stage, contentType: string, p: Payload<T>, complete: T -> bool) {
    match s
    case ContentTypeCheck => contentType != Consts.ApplicationJson
    case BodyDecode => p.first.Failed? && ClassifyDecodeError(p.first.err).Some?
    case TrailingData => p.second != Failed(Eof)
    case RequiredFields => !complete(p.value)
  }

  /** Which check a diagnostic comes from, read off its message alone. */
  function StageOf(m: MalformedRequest): Stage {
    if m.msg == NotJsonMsg then ContentTypeCheck
    else if m.msg == NotSingleMsg then TrailingData
    else if m.msg == IncompleteMsg then RequiredFields
    else BodyDecode
  }

  /** A decode-step diagnostic opens with "Request body contains " or
      "Request body must not ". */
  predicate DecodeShaped(msg: string) {
    HasPrefix(msg, ContainsHead) || HasPrefix(msg, MustNotHead)
  }

  /** The heads the message constants are built from, and the letters at
      which those heads and the other stages' messages part ways. */
  lemma MessageHeads()
    ensures HasPrefix(BadlyFormedMsg, ContainsHead) && HasPrefix(UnknownFieldMsg, ContainsHead)
    ensures HasPrefix(InvalidValueHead, ContainsHead) && HasPrefix(EmptyMsg, MustNotHead)
    ensures HasPrefix(PositionHead, BadlyFormedMsg) && |BadlyFormedMsg| < |PositionHead|
    ensures |ContainsHead| == 22 && |MustNotHead| == 22
    ensures BadlyFormedMsg[22] == 'b' && UnknownFieldMsg[22] == 'u' && InvalidValueHead[22] == 'a'
    ensures PositionHead[22] == 'b' && EmptyMsg[13] == 'm' && BadlyFormedMsg[13] == 'c'
  {
    PrefixOfConcat(ContainsHead, "badly-formed JSON");
    PrefixOfConcat(ContainsHead, "unknown field ");
    PrefixOfConcat(ContainsHead, "an invalid value for the ");
    PrefixOfConcat(MustNotHead, "be empty");
    PrefixOfConcat(BadlyFormedMsg, " (at position ");
  }

  lemma HeadLetters()
    ensures ContainsHead[13] == 'c' && MustNotHead[13] == 'm' && MustNotHead[18] == 'n'
    ensures NotSingleMsg[13] == 'm' && NotSingleMsg[18] == 'o' && IncompleteMsg[13] == 'i'
    ensures ContainsHead[0] == 'R' && MustNotHead[0] == 'R' && NotJsonMsg[0] == 'C'
  {
  }

  /** Which head each diagnostic of the decode step carries. */
  lemma DecodeMessageHead(e: DecodeError)
    requires ClassifyDecodeError(e).Some?
    ensures var msg := ClassifyDecodeError(e).value.msg;
      && (e.SyntaxError? ==> HasPrefix(msg, PositionHead))
      && (e.UnmarshalTypeError? ==> HasPrefix(msg, InvalidValueHead))
      && (e.Plain? && e != BodyTooLarge ==> HasPrefix(msg, UnknownFieldMsg))
      && (e == BodyTooLarge ==> HasPrefix(msg, MustNotHead))
  {
    match e
    case SyntaxError(o) => SyntaxHead(o);
    case UnmarshalTypeError(f, o) => TypeErrorHead(f, o);
    case Plain(t) =>
      if HasPrefix(t, UnknownFieldPrefix) {
        PrefixOfConcat(UnknownFieldMsg, t[|UnknownFieldPrefix|..]);
      } else {
        TooLargeHead();
      }
    case UnexpectedEof =>
    case Eof =>
  }

  lemma SyntaxHead(o: nat)
    ensures HasPrefix(BadlyFormedAtMsg(o), PositionHead)
  {
    PrefixOfConcat(PositionHead, FormatNat(o) + ")");
    assert BadlyFormedAtMsg(o) == PositionHead + (FormatNat(o) + ")");
  }

  lemma TypeErrorHead(f: string, o: nat)
    ensures HasPrefix(InvalidValueMsg(f, o), InvalidValueHead)
  {
    var rest := Quote(f) + FieldPositionSep + FormatNat(o) + ")";
    PrefixOfConcat(InvalidValueHead, rest);
    assert InvalidValueMsg(f, o) == InvalidValueHead + rest;
  }

  lemma TooLargeHead()
    ensures HasPrefix(TooLargeMsg(), MustNotHead)
  {
    var rest := "be larger than " + FormatNat(MaxSize) + "B";
    PrefixOfConcat(MustNotHead, rest);
    assert TooLargeMsg() == MustNotHead + rest;
  }

  /** Every diagnostic of the decode step has that shape. */
  lemma DecodeMessageShape(e: DecodeError)
    requires ClassifyDecodeError(e).Some?
    ensures DecodeShaped(ClassifyDecodeError(e).value.msg)
  {
    var msg := ClassifyDecodeError(e).value.msg;
    DecodeMessageHead(e);
    MessageHeads();
    match e
    case SyntaxError(_) =>
      PrefixTransitive(msg, PositionHead, BadlyFormedMsg);
      PrefixTransitive(msg, BadlyFormedMsg, ContainsHead);
    case UnmarshalTypeError(_, _) =>
      PrefixTransitive(msg, InvalidValueHead, ContainsHead);
    case Plain(_) =>
      if e != BodyTooLarge {
        PrefixTransitive(msg, UnknownFieldMsg, ContainsHead);
      }
    case UnexpectedEof =>
    case Eof =>
  }

  lemma DecodeMessagesDistinct(e: DecodeError)
    requires ClassifyDecodeError(e).Some?
    ensures ClassifyDecodeError(e).value.msg !in {NotJsonMsg, NotSingleMsg, IncompleteMsg}
  {
    var msg := ClassifyDecodeError(e).value.msg;
    DecodeMessageShape(e);
    HeadLetters();
    if HasPrefix(msg, ContainsHead) {
      PrefixesDiffer(msg, ContainsHead, NotJsonMsg, 0);
      PrefixesDiffer(msg, ContainsHead, NotSingleMsg, 13);
      PrefixesDiffer(msg, ContainsHead, IncompleteMsg, 13);
    } else {
      PrefixesDiffer(msg, MustNotHead, NotJsonMsg, 0);
      PrefixesDiffer(msg, MustNotHead, NotSingleMsg, 18);
      PrefixesDiffer(msg, MustNotHead, IncompleteMsg, 13);
    }
  }

  /** Reads a diagnostic of the decode step back to the error behind it:
      the offset from its digits, the field from its quoted form, the
      unknown field's name from the end of the message. */
  function ReadDiagnostic(m: MalformedRequest): Option<DecodeError> {
    if m.status == Consts.StatusRequestEntityTooLarge then
      if m.msg == TooLargeMsg() then Some(BodyTooLarge) else None
    else if m.status != Consts.StatusBadRequest then None
    else if m.msg == BadlyFormedMsg then Some(UnexpectedEof)
    else if m.msg == EmptyMsg then Some(Eof)
    else if HasPrefix(m.msg, PositionHead) then ReadOffset(m.msg)
    else if HasPrefix(m.msg, InvalidValueHead) then ReadTypeError(m.msg)
    else if HasPrefix(m.msg, UnknownFieldMsg) then Some(UnknownField(m.msg[|UnknownFieldMsg|..]))
    else None
  }

  function ReadOffset(msg: string): Option<DecodeError> {
    match Enclosed(msg, PositionHead, ")")
    case None => None
    case Some(d) => if d != "" && AllDigits(d) then Some(SyntaxError(ParseNat(d))) else None
  }

  /** The offset is the run of digits before the closing parenthesis; what
      precedes " field (at position " is the quoted field. */
  function ReadTypeError(msg: string): Option<DecodeError> {
    match Enclosed(msg, InvalidValueHead, ")")
    case None => None
    case Some(mid) =>
      var k := TrailingDigits(mid);
      match Enclosed(mid[..|mid| - k], "", FieldPositionSep)
      case None => None
      case Some(q) =>
        match Unquote(q)
        case None => None
        case Some(f) => if k == 0 then None else Some(UnmarshalTypeError(f, ParseNat(mid[|mid| - k..])))
  }

  lemma ReadOffsetOf(offset: nat)
    ensures ReadOffset(BadlyFormedAtMsg(offset)) == Some(SyntaxError(offset))
  {
    EnclosedOf(PositionHead, FormatNat(offset), ")");
    ParseFormatNat(offset);
  }

  lemma ReadTypeErrorOf(field: string, offset: nat)
    ensures ReadTypeError(InvalidValueMsg(field, offset)) == Some(UnmarshalTypeError(field, offset))
  {
    var q := Quote(field);
    var d := FormatNat(offset);
    var mid := q + FieldPositionSep + d;
    assert InvalidValueMsg(field, offset) == InvalidValueHead + mid + ")";
    EnclosedOf(InvalidValueHead, mid, ")");
    SplitDigits(q, d);
    UnquoteQuote(field);
    ParseFormatNat(offset);
    ReadTypeErrorParts(InvalidValueMsg(field, offset), mid, q, d, field);
  }

  lemma ReadTypeErrorParts(msg: string, mid: string, q: string, d: string, field: string)
    requires Enclosed(msg, InvalidValueHead, ")") == Some(mid)
    requires AllDigits(d) && |d| > 0 && TrailingDigits(mid) == |d|
    requires mid[..|mid| - |d|] == q + FieldPositionSep && mid[|mid| - |d|..] == d
    requires Unquote(q) == Some(field)
    ensures ReadTypeError(msg) == Some(UnmarshalTypeError(field, ParseNat(d)))
  {
    var k := TrailingDigits(mid);
    EnclosedTail(q, FieldPositionSep);
    assert Enclosed(mid[..|mid| - k], "", FieldPositionSep) == Some(q);
    assert mid[|mid| - k..] == d;
  }

  /** The digits after " field (at position " are the trailing digits. */
  lemma SplitDigits(q: string, d: string)
    requires AllDigits(d)
    ensures var mid := q + FieldPositionSep + d;
      && TrailingDigits(mid) == |d|
      && mid[..|mid| - |d|] == q + FieldPositionSep
      && mid[|mid| - |d|..] == d
  {
    assert FieldPositionSep[|FieldPositionSep| - 1] == ' ';
    var p := q + FieldPositionSep;
    assert p[|p| - 1] == ' ';
    TrailingDigitsOf(p, d);
    assert (p + d)[..|p|] == p;
    assert (p + d)[|p|..] == d;
  }

  /** Nothing is lost in classification: every diagnostic the decode step
      gives reads back to the error it was made from. */
  lemma ReadClassified(e: DecodeError)
    requires ClassifyDecodeError(e).Some?
    ensures ReadDiagnostic(ClassifyDecodeError(e).value) == Some(e)
  {
    var msg := ClassifyDecodeError(e).value.msg;
    MessageHeads();
    DecodeMessageHead(e);
    DecodeMessageShape(e);
    match e
    case SyntaxError(o) =>
      PrefixesDiffer(msg, ContainsHead, EmptyMsg, 13);
      ReadOffsetOf(o);
    case UnexpectedEof =>
    case UnmarshalTypeError(f, o) =>
      PrefixesDiffer(msg, InvalidValueHead, BadlyFormedMsg, 22);
      PrefixesDiffer(msg, ContainsHead, EmptyMsg, 13);
      PrefixesDiffer(msg, InvalidValueHead, PositionHead, 22);
      ReadTypeErrorOf(f, o);
    case Eof =>
      PrefixesDiffer(EmptyMsg, MustNotHead, BadlyFormedMsg, 13);
    case Plain(t) =>
      if e != BodyTooLarge {
        PrefixesDiffer(msg, UnknownFieldMsg, BadlyFormedMsg, 22);
        PrefixesDiffer(msg, ContainsHead, EmptyMsg, 13);
        PrefixesDiffer(msg, UnknownFieldMsg, PositionHead, 22);
        PrefixesDiffer(msg, UnknownFieldMsg, InvalidValueHead, 22);
        assert UnknownFieldPrefix + t[|UnknownFieldPrefix|..] == t;
      }
  }

  /** Hence two errors the decode step recognises never share a diagnostic. */
  lemma ClassifyInjective(e1: DecodeError, e2: DecodeError)
    requires ClassifyDecodeError(e1).Some? && ClassifyDecodeError(e1) == ClassifyDecodeError(e2)
    ensures e1 == e2
  {
    ReadClassified(e1);
    ReadClassified(e2);
  }

  /** First failure wins: a rejection names, by its message, a check that
      fails, and every earlier check passes. */
  lemma RejectionNamesFirstFailingStage<T>(contentType: string, p: Payload<T>, complete: T -> bool)
    requires DecodeJsonBody(contentType, p, complete).Fail?
    ensures var s := StageOf(DecodeJsonBody(contentType, p, complete).error);
      StageFails(s, contentType, p, complete)
      && forall t: Stage :: Rank(t) < Rank(s) ==> !StageFails(t, contentType, p, complete)
  {
    var r := DecodeJsonBody(contentType, p, complete);
    if contentType == Consts.ApplicationJson && p.first.Failed? && ClassifyDecodeError(p.first.err).Some? {
      DecodeMessagesDistinct(p.first.err);
    }
  }

  /** A request is accepted exactly when no check fails. */
  lemma AcceptedIffNoStageFails<T>(contentType: string, p: Payload<T>, complete: T -> bool)
    ensures DecodeJsonBody(contentType, p, complete).Pass? <==>
      forall s: Stage :: !StageFails(s, contentType, p, complete)
  {
    if DecodeJsonBody(contentType, p, complete).Fail? {
      RejectionNamesFirstFailingStage(contentType, p, complete);
    } else {
      forall s: Stage ensures !StageFails(s, contentType, p, complete) {
        match s
        case ContentTypeCheck =>
        case BodyDecode =>
        case TrailingData =>
        case RequiredFields =>
      }
    }
  }

  /** A decode error no case recognises, reported again by the second
      `Decode` as `json.Decoder` does once it has failed, ends in the
      single-object message. */
  lemma UnmatchedErrorFallsThrough<T>(p: Payload<T>, complete: T -> bool)
    requires p.first.Failed? && ClassifyDecodeError(p.first.err).None?
    requires p.second == p.first
    ensures DecodeJsonBody(Consts.ApplicationJson, p, complete) ==
      Fail(MalformedRequest(Consts.StatusBadRequest, NotSingleMsg))
  {
  }

  /** The message constants spelled out. */
  lemma MessageTexts()
    ensures BadlyFormedMsg == "Request body contains badly-formed JSON"
    ensures PositionHead == "Request body contains badly-formed JSON (at position "
    ensures InvalidValueHead == "Request body contains an invalid value for the "
    ensures UnknownFieldMsg == "Request body contains unknown field "
    ensures EmptyMsg == "Request body must not be empty"
  {
    BadlyFormedText();
    PositionHeadText();
    InvalidValueHeadText();
    UnknownFieldText();
    EmptyText();
  }

  lemma BadlyFormedText()
    ensures BadlyFormedMsg == "Request body contains badly-formed JSON"
  {
  }

  lemma PositionHeadText()
    ensures PositionHead == "Request body contains badly-formed JSON (at position "
  {
    BadlyFormedText();
  }

  lemma InvalidValueHeadText()
    ensures InvalidValueHead == "Request body contains an invalid value for the "
  {
  }

  lemma UnknownFieldText()
    ensures UnknownFieldMsg == "Request body contains unknown field "
  {
  }

  lemma EmptyText()
    ensures EmptyMsg == "Request body must not be empty"
  {
  }

  /** The cases the repository's tests pin down, one lemma each. */
  lemma PinnedSyntaxErrors<T>(v: T, complete: T -> bool, second: DecodeStep)
    ensures DecodeJsonBody(Consts.ApplicationJson, Payload(Failed(SyntaxError(24)), v, second), complete)
      == Fail(MalformedRequest(400, "Request body contains badly-formed JSON (at position 24)"))
    ensures DecodeJsonBody(Consts.ApplicationJson, Payload(Failed(SyntaxError(19)), v, second), complete)
      == Fail(MalformedRequest(400, "Request body contains badly-formed JSON (at position 19)"))
  {
    BadlyFormedAt24();
    BadlyFormedAt19();
  }

  lemma BadlyFormedAt24()
    ensures BadlyFormedAtMsg(24) == "Request body contains badly-formed JSON (at position 24)"
  {
    SmallNumerals();
    MessageTexts();
  }

  lemma BadlyFormedAt19()
    ensures BadlyFormedAtMsg(19) == "Request body contains badly-formed JSON (at position 19)"
  {
    SmallNumerals();
    MessageTexts();
  }

  lemma PinnedTruncated<T>(v: T, complete: T -> bool, second: DecodeStep)
    ensures DecodeJsonBody(Consts.ApplicationJson, Payload(Failed(UnexpectedEof), v, second), complete)
      == Fail(MalformedRequest(400, "Request body contains badly-formed JSON"))
  {
    MessageTexts();
  }

  /** The decimal numerals of the tests' offsets and of the size limit. */
  lemma SmallNumerals()
    ensures FormatNat(24) == "24" && FormatNat(19) == "19"
    ensures FormatNat(12) == "12" && FormatNat(128) == "128"
  {
    assert FormatNat(1) == "1" && FormatNat(2) == "2";
    assert FormatNat(12) == "12";
  }

  lemma QuoteEmail()
    ensures Quote("email") == "\"email\""
  {
    assert Escape("l") == "l";
    assert Escape("il") == "il";
    assert Escape("ail") == "ail";
    assert Escape("mail") == "mail";
    assert Escape("email") == "email";
  }

  lemma InvalidValueText(q: string, d: string)
    requires q == "\"email\"" && d == "12"
    ensures InvalidValueHead + q + FieldPositionSep + d + ")"
      == "Request body contains an invalid value for the \"email\" field (at position 12)"
  {
    InvalidValueTail(q, d);
    InvalidValueJoin();
    assert InvalidValueHead + q + FieldPositionSep + d + ")" == InvalidValueHead + (q + FieldPositionSep + d + ")");
  }

  lemma InvalidValueTail(q: string, d: string)
    requires q == "\"email\"" && d == "12"
    ensures q + FieldPositionSep + d + ")" == "\"email\" field (at position 12)"
  {
  }

  lemma InvalidValueJoin()
    ensures InvalidValueHead + "\"email\" field (at position 12)"
      == "Request body contains an invalid value for the \"email\" field (at position 12)"
  {
    InvalidValueHeadText();
    JoinAt("Request body contains an invalid value for the ", "\"email\" field (at position 12)",
      "Request body contains an invalid value for the \"email\" field (at position 12)");
  }

  /** A text is the join of its two halves. */
  lemma JoinAt(h: string, t: string, s: string)
    requires |s| == |h| + |t| && s[..|h|] == h && s[|h|..] == t
    ensures h + t == s
  {
    assert s == s[..|h|] + s[|h|..];
  }

  lemma PinnedTypeError<T>(v: T, complete: T -> bool, second: DecodeStep)
    ensures DecodeJsonBody(Consts.ApplicationJson, Payload(Failed(UnmarshalTypeError("email", 12)), v, second), complete)
      == Fail(MalformedRequest(400, "Request body contains an invalid value for the \"email\" field (at position 12)"))
  {
    SmallNumerals();
    QuoteEmail();
    MessageTexts();
    InvalidValueText(Quote("email"), FormatNat(12));
  }

  lemma PinnedUnknownField<T>(v: T, complete: T -> bool, second: DecodeStep)
    ensures DecodeJsonBody(Consts.ApplicationJson, Payload(Failed(UnknownField("\"unknown\"")), v, second), complete)
      == Fail(MalformedRequest(400, "Request body contains unknown field \"unknown\""))
  {
    var t := UnknownFieldPrefix + "\"unknown\"";
    assert HasPrefix(t, UnknownFieldPrefix) && t[|UnknownFieldPrefix|..] == "\"unknown\"";
    MessageTexts();
    assert UnknownFieldMsg + TrimPrefix(t, UnknownFieldPrefix) == "Request body contains unknown field \"unknown\"";
  }

  lemma PinnedEmptyAndTooLarge<T>(v: T, complete: T -> bool, second: DecodeStep)
    ensures DecodeJsonBody(Consts.ApplicationJson, Payload(Failed(Eof), v, second), complete)
      == Fail(MalformedRequest(400, "Request body must not be empty"))
    ensures DecodeJsonBody(Consts.ApplicationJson, Payload(Failed(BodyTooLarge), v, second), complete)
      == Fail(MalformedRequest(413, "Request body must not be larger than 128B"))
    ensures DecodeJsonBody("text/plain", Payload(Decoded, v, second), complete)
      == Fail(MalformedRequest(415, "Content-Type header is not application/json"))
  {
    MessageTexts();
    TooLargeMsgText();
    assert !HasPrefix(TooLargeText, UnknownFieldPrefix) by { assert TooLargeText[0] != UnknownFieldPrefix[0]; }
  }

  lemma TooLargeMsgText()
    ensures TooLargeMsg() == "Request body must not be larger than 128B"
  {
    SmallNumerals();
    JoinAt("Request body must not be larger than ", "128B", "Request body must not be larger than 128B");
    assert TooLargeMsg() == MustNotHead + "be larger than " + ("128" + "B");
  }
}

=== FILE: jwt.dfy ===
/** Issuing and checking the service's JSON Web Tokens (`jwt.go`).

    The signature and the byte encoding (RFC 7519 with HS256, section 3.2
    of RFC 7518) stay abstract: a `Jose` value bundles the process key with
    the library's signing, header/payload reading and signature check, and
    `Coherent` says when they fit together. What is modelled is the claims
    construction, the algorithm check of the key callback, the library's
    `Parse` decision and what `ValidateToken` hands back. */
module Jwt {
  import opened Wrappers

  /** `expirationDuration`: five minutes, in seconds. */
  const ExpirationSeconds: int := 5 * 60

  /** Length in bytes of the process key drawn at start-up. */
  const KeyLength: nat := 64

  /** The token payload: `username`, `authenticated` and the registered
      `exp` claim in Unix seconds (0 when absent). */
  datatype Claims = Claims(username: string, authenticated: bool, expiresAt: int)

  /** Signing-method families of the library; the key callback only admits
      the HMAC one. */
  datatype Family = Hmac | Rsa | RsaPss | Ecdsa | EdDsa | Unsigned

  datatype SigningMethod = SigningMethod(family: Family, alg: string)

  const HS256: SigningMethod := SigningMethod(Hmac, "HS256")

  /** What the library reads from a token before checking anything: either
      it cannot split and decode it, or it learns the method named in the
      header and the payload claims. */
  datatype Inspection = Garbled(reason: string) | Inspected(scheme: SigningMethod, claims: Claims)

  /** The JWT library as the core uses it, with the process key. */
  datatype Jose = Jose(
    key: seq<byte>,
    sign: (Claims, seq<byte>) -> Result<string, string>,
    inspect: string -> Inspection,
    verify: (string, seq<byte>) -> bool)

  /** Signing with the process key produces a token that reads back as an
      HS256 token carrying the signed claims, with a valid signature. */
  ghost predicate Coherent(jose: Jose) {
    forall c: Claims, t: string :: jose.sign(c, jose.key) == Success(t) ==>
      jose.inspect(t) == Inspected(HS256, c) && jose.verify(t, jose.key)
  }

  /** The claims `GenerateJWT` signs at time `now`. */
  function ClaimsAt(username: string, authenticated: bool, now: int): (c: Claims)
    ensures c.username == username && c.authenticated == authenticated
    ensures c.expiresAt - now == ExpirationSeconds
  {
    Claims(username, authenticated, now + ExpirationSeconds)
  }

  /** Go's `(string, error)` pair of `GenerateJWT`. */
  datatype Issued = Issued(token: string, err: Option<string>)

  /** `GenerateJWT`: sign the claims with HS256 and the process key; on a
      signing failure the token is the empty string. */
  function GenerateJwt(jose: Jose, username: string, authenticated: bool, now: int): (r: Issued)
    ensures r.err.Some? <==> jose.sign(ClaimsAt(username, authenticated, now), jose.key).Failure?
    ensures r.err.Some? ==> r.token == ""
    ensures r.err.None? ==> jose.sign(ClaimsAt(username, authenticated, now), jose.key) == Success(r.token)
  {
    match jose.sign(ClaimsAt(username, authenticated, now), jose.key)
    case Success(t) => Issued(t, None)
    case Failure(e) => Issued("", Some(e))
  }

  /** The key callback passed to `jwt.Parse`: any method outside the HMAC
      family is refused, naming the header's algorithm. */
  function KeyFunc(jose: Jose, scheme: SigningMethod): (r: Result<seq<byte>, string>)
    ensures r.Success? <==> scheme.family == Hmac
    ensures r.Success? ==> r.value == jose.key
    ensures r.Failure? ==> r.error == "unexpected signing method: " + scheme.alg
  {
    if scheme.family == Hmac then Success(jose.key)
    else Failure("unexpected signing method: " + scheme.alg)
  }

  /** Why the library rejects a token. `Invalid` collects the claim check
      (`exp` passed) and the signature check, which both run. */
  datatype ParseError =
    | Malformed(reason: string)
    | Unverifiable(reason: string)
    | Invalid(expired: bool, badSignature: bool)

  /** `jwt.Parse`'s answer: the token's `Valid` flag and the error. */
  datatype Parsed = Parsed(valid: bool, err: Option<ParseError>)

  /** A registered `exp` of 0 counts as absent; otherwise the token is live
      up to and including second `exp`. */
  predicate Expired(c: Claims, now: int) {
    c.expiresAt != 0 && now > c.expiresAt
  }

  /** `jwt.Parse` with the key callback: decode, ask the callback for the
      key, then check the claims and the signature. */
  function Parse(jose: Jose, token: string, now: int): (r: Parsed)
    ensures r.valid <==> r.err.None?
    ensures r.valid <==>
      && jose.inspect(token).Inspected?
      && jose.inspect(token).scheme.family == Hmac
      && !Expired(jose.inspect(token).claims, now)
      && jose.verify(token, jose.key)
  {
    match jose.inspect(token)
    case Garbled(reason) => Parsed(false, Some(Malformed(reason)))
    case Inspected(scheme, c) =>
      match KeyFunc(jose, scheme)
      case Failure(msg) => Parsed(false, Some(Unverifiable(msg)))
      case Success(key) =>
        var expired := Expired(c, now);
        var badSignature := !jose.verify(token, key);
        if expired || badSignature then Parsed(false, Some(Invalid(expired, badSignature)))
        else Parsed(true, None)
  }

  /** The errors `ValidateToken` returns: the library's, or its own. */
  datatype TokenError = ParseFailed(e: ParseError) | InvalidJwtToken

  function TokenErrorText(e: TokenError): string {
    match e
    case ParseFailed(Malformed(reason)) => reason
    case ParseFailed(Unverifiable(reason)) => reason
    case ParseFailed(Invalid(_, _)) => "token is invalid"
    case InvalidJwtToken => "invalid JWT token"
  }

  /** `ValidateToken` as written: on success it returns the claims record it
      allocated before parsing and never handed to the parser, so every
      accepted token yields an empty username and `authenticated` false. */
  function ValidateToken(jose: Jose, token: string, now: int): (r: Result<Claims, TokenError>)
    ensures r.Success? <==> Parse(jose, token, now).valid
    ensures r.Success? ==> r.value == Claims("", false, 0)
    ensures r.Failure? ==> r.error == ParseFailed(Parse(jose, token, now).err.value)
  {
    var p := Parse(jose, token, now);
    if p.err.Some? then Failure(ParseFailed(p.err.value))
    else if p.valid then Success(Claims("", false, 0))
    else Failure(InvalidJwtToken)
  }

  /** The evidently intended validation: the claims the token carries. */
  function ValidateTokenClaims(jose: Jose, token: string, now: int): (r: Result<Claims, TokenError>)
    ensures r.Success? <==> Parse(jose, token, now).valid
    ensures r.Success? ==> jose.inspect(token) == Inspected(jose.inspect(token).scheme, r.value)
    ensures r.Failure? ==> r.error == ParseFailed(Parse(jose, token, now).err.value)
  {
    var p := Parse(jose, token, now);
    if p.err.Some? then Failure(ParseFailed(p.err.value))
    else if p.valid then Success(jose.inspect(token).claims)
    else Failure(InvalidJwtToken)
  }

  /** A token naming a method outside the HMAC family is refused by the key
      callback, whatever its claims and signature. */
  lemma NonHmacRejected(jose: Jose, token: string, now: int)
    requires jose.inspect(token).Inspected? && jose.inspect(token).scheme.family != Hmac
    ensures ValidateToken(jose, token, now)
      == Failure(ParseFailed(Unverifiable("unexpected signing method: " + jose.inspect(token).scheme.alg)))
    ensures ValidateTokenClaims(jose, token, now) == ValidateToken(jose, token, now)
  {
  }

  /** The library never reports a token both error-free and invalid, so the
      "invalid JWT token" branch cannot be taken. */
  lemma InvalidJwtTokenUnreachable(jose: Jose, token: string, now: int)
    ensures ValidateToken(jose, token, now) != Failure(InvalidJwtToken)
    ensures ValidateTokenClaims(jose, token, now) != Failure(InvalidJwtToken)
  {
  }

  /** Round trip: a freshly issued token validates, until its expiry, to
      the claims it was issued with. */
  lemma IssuedTokenValidates(jose: Jose, username: string, authenticated: bool, now: int, later: int)
    requires Coherent(jose)
    requires GenerateJwt(jose, username, authenticated, now).err.None?
    requires later <= now + ExpirationSeconds
    ensures ValidateTokenClaims(jose, GenerateJwt(jose, username, authenticated, now).token, later)
      == Success(Claims(username, authenticated, now + ExpirationSeconds))
  {
    var c := ClaimsAt(username, authenticated, now);
    var t := GenerateJwt(jose, username, authenticated, now).token;
    assert jose.sign(c, jose.key) == Success(t);
    assert jose.inspect(t) == Inspected(HS256, c);
  }

  /** Past its expiry the same token is refused as expired. */
  lemma IssuedTokenExpires(jose: Jose, username: string, authenticated: bool, now: int, later: int)
    requires Coherent(jose)
    requires GenerateJwt(jose, username, authenticated, now).err.None?
    requires now >= 0 && later > now + ExpirationSeconds
    ensures ValidateTokenClaims(jose, GenerateJwt(jose, username, authenticated, now).token, later)
      == Failure(ParseFailed(Invalid(true, false)))
  {
    var c := ClaimsAt(username, authenticated, now);
    var t := GenerateJwt(jose, username, authenticated, now).token;
    assert jose.sign(c, jose.key) == Success(t);
    assert jose.inspect(t) == Inspected(HS256, c);
  }

  /** The discrepancy: the shipped validator accepts the same fresh token
      but loses its claims, so a token issued after the second factor
      still reads as not authenticated, for a user with no name. */
  lemma ValidateTokenForgetsClaims(jose: Jose, username: string, now: int)
    requires Coherent(jose)
    requires GenerateJwt(jose, username, true, now).err.None?
    ensures var t := GenerateJwt(jose, username, true, now).token;
      && ValidateToken(jose, t, now) == Success(Claims("", false, 0))
      && ValidateTokenClaims(jose, t, now).value.authenticated
  {
    IssuedTokenValidates(jose, username, true, now, now);
  }

  /** Start-up key generation: a short read or a read error is fatal. */
  datatype KeyRead = KeyRead(bytes: seq<byte>, count: nat, err: Option<string>)

  function InitKey(read: KeyRead): (r: Result<seq<byte>, string>)
    ensures r.Success? <==> read.count == KeyLength && read.err.None?
    ensures r.Success? ==> r.value == read.bytes
    ensures read.count != KeyLength ==> r == Failure("Didn't create a secret")
  {
    if read.count != KeyLength then Failure("Didn't create a secret")
    else if read.err.Some? then Failure("Error occured wihle creating a secret")
    else Success(read.bytes)
  }
}

=== FILE: problem_details.dfy ===
/** Problem details responses and the classifier that picks one for an
    error (`problemDetails.go`). Every constructor takes the request path,
    which becomes the problem's `instance`. */
module Problems {
  import opened Strings
  import opened Errors
  import opened Api
  import QuotedEntry
  import Consts

  /** The generic 500 problem: the caller learns nothing about the cause. */
  function UnexpectedErrorProblem(path: string): (p: ProblemDetails)
    ensures p.statusCode == Consts.StatusInternalServerError && p.instance == path
    ensures p.problemType == "unexpected.error"
  {
    ProblemDetails(Consts.StatusInternalServerError, "unexpected.error", "Unexpected error occured",
      "An unexpected error occured during processing your request", path)
  }

  /** Login with a password that does not match the stored hash. */
  function InvalidCredentials(path: string): (p: ProblemDetails)
    ensures p.statusCode == Consts.StatusUnauthorized && p.instance == path
    ensures p.problemType == "credentials.invalid" && p.title == "Invalid credentials"
  {
    ProblemDetails(Consts.StatusUnauthorized, "credentials.invalid", "Invalid credentials",
      "Submitted credentials are invalid", path)
  }

  /** A missing or rejected token, or a 2FA step out of turn. Only the status
      and the instance are known; the strings are placeholders. */
  function Unauthorized(path: string): (p: ProblemDetails)
    ensures p.statusCode == Consts.StatusUnauthorized && p.instance == path
  {
    ProblemDetails(Consts.StatusUnauthorized, "unauthorized", "Unauthorized", "", path)
  }

  /** `sqlNoRows`: the lookup by username found nothing. */
  function SqlNoRows(path: string): (p: ProblemDetails)
    ensures p.statusCode == Consts.StatusUnauthorized && p.instance == path
    ensures p.problemType == "username.not_found" && p.title == "Entered username was not found"
  {
    ProblemDetails(Consts.StatusUnauthorized, "username.not_found", "Entered username was not found",
      "Username you eneterd was not found", path)
  }

  /** The two 401 answers of the log-in share status and instance but not
      type or title, so a client can tell an unknown username from a wrong
      password. */
  lemma LoginProblemsApart(path: string)
    ensures SqlNoRows(path).statusCode == InvalidCredentials(path).statusCode
    ensures SqlNoRows(path).problemType != InvalidCredentials(path).problemType
    ensures SqlNoRows(path).title != InvalidCredentials(path).title
  {
    assert SqlNoRows(path).problemType[0] == 'u' != InvalidCredentials(path).problemType[0];
    assert SqlNoRows(path).title[0] == 'E' != InvalidCredentials(path).title[0];
  }

  /** Names of the unique keys of the `users` table, as MySQL cites them. */
  const UsernameKey: string := "users.username"
  const EmailKey: string := "users.email"

  /** Which column a duplicate-key message is taken to be about. */
  datatype Duplicate = UsernameTaken | EmailTaken | UnknownDuplicate

  /** The username test runs first, so a message naming both keys is a
      username clash. */
  function DuplicateOf(message: string): (d: Duplicate)
    ensures d == UsernameTaken <==> Contains(message, UsernameKey)
    ensures d == EmailTaken <==> !Contains(message, UsernameKey) && Contains(message, EmailKey)
    ensures d == UnknownDuplicate <==> !Contains(message, UsernameKey) && !Contains(message, EmailKey)
  {
    if Contains(message, UsernameKey) then UsernameTaken
    else if Contains(message, EmailKey) then EmailTaken
    else UnknownDuplicate
  }

  /** Type, title and detail of a duplicate-key problem. */
  datatype Triple = Triple(problemType: string, title: string, detail: string)

  /** `sqlDuplicateEntry`: the column decides type and title; the detail
      quotes the first `'...'` run of the message (see `QuotedEntry`). */
  function SqlDuplicateEntry(message: string): (r: Triple)
    ensures r.problemType == "username.already_exists" <==> DuplicateOf(message) == UsernameTaken
    ensures r.problemType == "email.already_used" <==> DuplicateOf(message) == EmailTaken
    ensures r.problemType == "unknown.duplicate" <==> DuplicateOf(message) == UnknownDuplicate
    ensures exists head, tail :: r.detail == head + QuotedEntry.FindString(message) + tail
    ensures DuplicateOf(message) == UsernameTaken ==>
      r == Triple("username.already_exists", "Username already exists",
                  "Username " + QuotedEntry.FindString(message) + " already exists")
    ensures DuplicateOf(message) == EmailTaken ==>
      r == Triple("email.already_used", "Email already used",
                  "Email " + QuotedEntry.FindString(message) + " is already used")
    ensures DuplicateOf(message) == UnknownDuplicate ==>
      r == Triple("unknown.duplicate", "Unknown duplicate entry",
                  "Unknown entry " + QuotedEntry.FindString(message) + " is already used")
  {
    var entry := QuotedEntry.FindString(message);
    match DuplicateOf(message)
    case UsernameTaken =>
      var detail := "Username " + entry + " already exists";
      Embeds(detail, "Username ", entry, " already exists");
      Triple("username.already_exists", "Username already exists", detail)
    case EmailTaken =>
      var detail := "Email " + entry + " is already used";
      Embeds(detail, "Email ", entry, " is already used");
      Triple("email.already_used", "Email already used", detail)
    case UnknownDuplicate =>
      var detail := "Unknown entry " + entry + " is already used";
      Embeds(detail, "Unknown entry ", entry, " is already used");
      Triple("unknown.duplicate", "Unknown duplicate entry", detail)
  }

  /** `detail` quotes `entry` between a head and a tail. */
  lemma Embeds(detail: string, head: string, entry: string, tail: string)
    requires detail == head + entry + tail
    ensures exists h, t :: detail == h + entry + t
  {
  }

  /** `mySQLProblem`: only error number 1062 is recognised. */
  function MySqlProblem(number: uint16, message: string, path: string): (p: ProblemDetails)
    ensures p.instance == path
    ensures number == ErDupEntry ==>
      var t := SqlDuplicateEntry(message);
      p == ProblemDetails(Consts.StatusConflict, t.problemType, t.title, t.detail, path)
    ensures number != ErDupEntry ==> p == UnexpectedErrorProblem(path)
  {
    if number == ErDupEntry then
      var t := SqlDuplicateEntry(message);
      ProblemDetails(Consts.StatusConflict, t.problemType, t.title, t.detail, path)
    else
      UnexpectedErrorProblem(path)
  }

  /** `GetProblemDetails`: a MySQL error by its number, `sql.ErrNoRows`, or
      the generic 500 problem for anything else (a malformed-request error
      included). */
  function GetProblemDetails(err: Error, path: string): (p: ProblemDetails)
    ensures p.instance == path
    ensures p.statusCode in {Consts.StatusUnauthorized, Consts.StatusConflict, Consts.StatusInternalServerError}
    ensures p.statusCode == Consts.StatusConflict <==> err.MySql? && err.number == ErDupEntry
    ensures p.statusCode == Consts.StatusUnauthorized <==> err == NoRows
    ensures err == NoRows ==> p == SqlNoRows(path)
    ensures p.statusCode == Consts.StatusInternalServerError ==> p == UnexpectedErrorProblem(path)
  {
    match err
    case MySql(number, message) => MySqlProblem(number, message, path)
    case NoRows => SqlNoRows(path)
    case _ => UnexpectedErrorProblem(path)
  }

  /** `BadRequest`: a malformed-request error keeps its status and message;
      anything else becomes the generic 500 problem. */
  function BadRequest(err: Error, path: string): (p: ProblemDetails)
    ensures p.instance == path
    ensures err.Malformed? ==>
      p.statusCode == err.m.status && p.detail == err.m.msg && p.problemType == "bad.request" && p.title == "Bad request"
    ensures !err.Malformed? ==> p == UnexpectedErrorProblem(path)
  {
    match err
    case Malformed(m) => ProblemDetails(m.status, "bad.request", "Bad request", m.msg, path)
    case _ => UnexpectedErrorProblem(path)
  }

  /** The duplicate-key message of MySQL 8 (error 1062, `ER_DUP_ENTRY`). */
  function DuplicateEntryMessage(value: string, key: string): string {
    "Duplicate entry '" + value + "' for key '" + key + "'"
  }

  const DuplicateEntryHead: string := "Duplicate entry "

  /** A value fit for the entry expression: 3 to 30 characters, no quote,
      no newline. */
  predicate PlainEntry(v: string) {
    && QuotedEntry.MinInner <= |v| <= QuotedEntry.MaxInner
    && forall j :: 0 <= j < |v| ==> v[j] != '\'' && v[j] != '\n'
  }

  /** The entry extracted from a MySQL duplicate-key message is the quoted
      value. */
  lemma EntryOfDuplicateMessage(v: string, key: string)
    requires PlainEntry(v)
    ensures QuotedEntry.FindString(DuplicateEntryMessage(v, key)) == "'" + v + "'"
  {
    var suffix := " for key '" + key + "'";
    assert DuplicateEntryMessage(v, key) == DuplicateEntryHead + "'" + v + "'" + suffix;
    assert forall j :: 0 <= j < |DuplicateEntryHead| ==> DuplicateEntryHead[j] != '\'';
    QuotedEntry.FindQuotedValue(DuplicateEntryHead, v, suffix);
  }

  /** A key name occurs in the message that cites it. */
  lemma KeyOccursInMessage(v: string, key: string)
    ensures Contains(DuplicateEntryMessage(v, key), key)
  {
    var s := DuplicateEntryMessage(v, key);
    var i := |"Duplicate entry '" + v + "' for key '"|;
    assert s[i..i + |key|] == key;
    assert OccursAt(s, key, i);
  }

  /** Signing up with a taken username of plain shape answers 409 with
      "Username '<name>' already exists". */
  lemma UsernameClash(name: string, path: string)
    requires PlainEntry(name)
    ensures var p := GetProblemDetails(MySql(ErDupEntry, DuplicateEntryMessage(name, UsernameKey)), path);
      && p.statusCode == Consts.StatusConflict
      && p.problemType == "username.already_exists"
      && p.title == "Username already exists"
      && p.detail == "Username '" + name + "' already exists"
      && p.instance == path
  {
    var message := DuplicateEntryMessage(name, UsernameKey);
    assert QuotedEntry.FindString(message) == "'" + name + "'" by { EntryOfDuplicateMessage(name, UsernameKey); }
    assert DuplicateOf(message) == UsernameTaken by { KeyOccursInMessage(name, UsernameKey); }
    UsernameDetailText(name);
  }

  lemma UsernameDetailText(v: string)
    ensures "Username " + ("'" + v + "'") + " already exists" == "Username '" + v + "' already exists"
  {
  }

  /** A text free of single quotes that occurs in a string lies entirely on
      one side of every quote of that string. */
  lemma OccurrenceAvoidsQuote(s: string, t: string, i: int, q: int)
    requires OccursAt(s, t, i) && 0 <= q < |s| && s[q] == '\''
    requires forall j :: 0 <= j < |t| ==> t[j] != '\''
    ensures q < i || i + |t| <= q
  {
  }

  lemma NoUsernameKeyInHead(s: string, i: int)
    requires |s| >= 16 && s[..16] == DuplicateEntryHead
    requires 0 <= i <= 2
    ensures !OccursAt(s, UsernameKey, i)
  {
    assert s[1] == s[..16][1] == DuplicateEntryHead[1] == 'u';
    assert s[2] == s[..16][2] == DuplicateEntryHead[2] == 'p';
    assert s[3] == s[..16][3] == DuplicateEntryHead[3] == 'l';
    assert UsernameKey[1] == 's';
  }

  /** The message of an e-mail clash names the username key only when the
      address itself contains it. */
  lemma UsernameKeyNotInEmailMessage(v: string)
    requires forall j :: 0 <= j < |v| ==> v[j] != '\''
    requires !Contains(v, UsernameKey)
    ensures !Contains(DuplicateEntryMessage(v, EmailKey), UsernameKey)
  {
    var s := DuplicateEntryMessage(v, EmailKey);
    var n := |v|;
    assert |s| == n + 40;
    assert s[..16] == DuplicateEntryHead;
    assert s[16] == '\'' && s[n + 17] == '\'' && s[n + 27] == '\'' && s[n + 39] == '\'';
    assert forall j :: 0 <= j < |UsernameKey| ==> UsernameKey[j] != '\'';
    forall i | OccursAt(s, UsernameKey, i)
      ensures false
    {
      OccurrenceAvoidsQuote(s, UsernameKey, i, 16);
      OccurrenceAvoidsQuote(s, UsernameKey, i, n + 17);
      OccurrenceAvoidsQuote(s, UsernameKey, i, n + 27);
      OccurrenceAvoidsQuote(s, UsernameKey, i, n + 39);
      if i <= 2 {
        NoUsernameKeyInHead(s, i);
      } else if 16 < i {
        assert v[i - 17..i - 17 + 14] == s[i..i + 14];
        assert OccursAt(v, UsernameKey, i - 17);
      }
    }
  }

  /** Signing up with a taken e-mail address answers 409 with
      "Email '<address>' is already used", unless the address itself
      contains the username key name. */
  lemma EmailClash(address: string, path: string)
    requires PlainEntry(address)
    requires !Contains(address, UsernameKey)
    ensures var p := GetProblemDetails(MySql(ErDupEntry, DuplicateEntryMessage(address, EmailKey)), path);
      && p.statusCode == Consts.StatusConflict
      && p.problemType == "email.already_used"
      && p.title == "Email already used"
      && p.detail == "Email '" + address + "' is already used"
  {
    var message := DuplicateEntryMessage(address, EmailKey);
    assert QuotedEntry.FindString(message) == "'" + address + "'" by { EntryOfDuplicateMessage(address, EmailKey); }
    assert DuplicateOf(message) == EmailTaken by {
      KeyOccursInMessage(address, EmailKey);
      UsernameKeyNotInEmailMessage(address);
    }
    EmailDetailText(address);
  }

  lemma EmailDetailText(v: string)
    ensures "Email " + ("'" + v + "'") + " is already used" == "Email '" + v + "' is already used"
  {
  }

  /** An address that contains the username key name is reported as a
      username clash: the substring tests look at the whole message. */
  lemma EmailMistakenForUsername(path: string)
    ensures GetProblemDetails(MySql(ErDupEntry, DuplicateEntryMessage("users.username@x.io", EmailKey)), path).problemType
      == "username.already_exists"
  {
    var s := DuplicateEntryMessage("users.username@x.io", EmailKey);
    assert s[17..31] == UsernameKey;
    assert OccursAt(s, UsernameKey, 17);
  }

  /** A value shorter than three characters does not close the match: the
      lazy run extends to the next quote, so the entry for "Bo" is
      "'Bo' for key '". */
  lemma ShortUsernameEntry()
    ensures QuotedEntry.FindString(DuplicateEntryMessage("Bo", UsernameKey)) == "'Bo' for key '"
  {
    var s := DuplicateEntryMessage("Bo", UsernameKey);
    ShortMessageLayout();
    assert QuotedEntry.MatchAt(s, 16, 12);
    forall k' | k' < 12
      ensures !QuotedEntry.MatchAt(s, 16, k')
    {
      if QuotedEntry.MinInner <= k' {
        assert s[16 + k' + 1] != '\'';
      }
    }
    QuotedEntry.FindStringIs(s, 16, 12);
  }

  /** Where the quotes and newlines of the message for "Bo" are. */
  lemma ShortMessageLayout()
    ensures var s := DuplicateEntryMessage("Bo", UsernameKey);
      && |s| == 45 && s[16] == '\'' && s[19] == '\'' && s[29] == '\''
      && (forall j :: 0 <= j < 16 ==> s[j] != '\'')
      && (forall j :: 20 <= j < 29 ==> s[j] != '\'')
      && (forall j :: 17 <= j < 29 ==> s[j] != '\n')
      && s[16..30] == "'Bo' for key '"
  {
    var head := DuplicateEntryHead + "'Bo'";
    var tail := " for key '" + UsernameKey + "'";
    var s := DuplicateEntryMessage("Bo", UsernameKey);
    assert s == head + tail;
    HeadLayout();
    TailLayout();
    assert s[16..30] == head[16..] + tail[..10];
  }

  /** The message for "Bo" up to the closing quote of the value. */
  lemma HeadLayout()
    ensures var head := DuplicateEntryHead + "'Bo'";
      && |head| == 20 && head[16] == '\'' && head[19] == '\''
      && head[16..] == "'Bo'"
      && (forall j :: 0 <= j < 16 ==> head[j] != '\'')
      && head[17] != '\n' && head[18] != '\n' && head[19] != '\n'
  {
  }

  /** The rest of the message for a username clash. */
  lemma TailLayout()
    ensures var tail := " for key '" + UsernameKey + "'";
      && |tail| == 25 && tail[9] == '\''
      && tail[..10] == " for key '"
      && (forall j :: 0 <= j < 9 ==> tail[j] != '\'' && tail[j] != '\n')
  {
  }

  /** The test vectors of the classifier: the number decides the status,
      the message never does. */
  lemma PinnedProblems(path: string)
    ensures GetProblemDetails(MySql(1062, "duplicate entries for users.username"), path).statusCode == 409
    ensures GetProblemDetails(MySql(1062, "duplicate entries for users.email"), path).statusCode == 409
    ensures GetProblemDetails(MySql(1062, "duplicate entries"), path).statusCode == 409
    ensures GetProblemDetails(MySql(1, "unknown error"), path) == UnexpectedErrorProblem(path)
    ensures GetProblemDetails(NoRows, path).statusCode == 401
    ensures GetProblemDetails(Other("unknown error"), path) == UnexpectedErrorProblem(path)
  {
    DuplicateIsConflict("duplicate entries for users.username", path);
    DuplicateIsConflict("duplicate entries for users.email", path);
    DuplicateIsConflict("duplicate entries", path);
  }

  /** Any message under error number 1062 is a conflict. */
  lemma DuplicateIsConflict(message: string, path: string)
    ensures GetProblemDetails(MySql(ErDupEntry, message), path).statusCode == Consts.StatusConflict
  {
  }
}

=== FILE: quoted_entry.dfy ===
/** The entry extraction of `sqlDuplicateEntry`: `FindString` of the
    regular expression `'(.{3,30}?)'` under Go's RE2 semantics. A match is
    a single quote, an inner run of 3 to 30 characters other than a newline
    (`.` does not match `\n`; it does match `'`), and a closing single quote.
    RE2 reports the leftmost match, and at that position the lazy `{3,30}?`
    picks the shortest inner run. */
module QuotedEntry {
  import opened Wrappers

  const MinInner := 3
  const MaxInner := 30

  /** A match starts at `i` with an inner run of `k` characters. */
  predicate MatchAt(s: string, i: int, k: int) {
    && MinInner <= k <= MaxInner
    && 0 <= i
    && i + k + 1 < |s|
    && s[i] == '\''
    && s[i + k + 1] == '\''
    && forall j :: i + 1 <= j <= i + k ==> s[j] != '\n'
  }

  /** Shortest inner run of at least `k` characters closing a match at `i`. */
  function ShortestFrom(s: string, i: nat, k: nat): (r: Option<nat>)
    requires MinInner <= k
    ensures r.Some? ==> k <= r.value && MatchAt(s, i, r.value)
    ensures r.Some? ==> forall k' :: k <= k' < r.value ==> !MatchAt(s, i, k')
    ensures r.None? ==> forall k' :: k <= k' ==> !MatchAt(s, i, k')
    decreases MaxInner + 1 - k
  {
    if k > MaxInner || i + k + 1 >= |s| then None
    else if MatchAt(s, i, k) then Some(k)
    else ShortestFrom(s, i, k + 1)
  }

  /** Leftmost start at or after `i`, with its shortest inner run. */
  function LeftmostFrom(s: string, i: nat): (r: Option<(nat, nat)>)
    ensures r.Some? ==> i <= r.value.0 && MatchAt(s, r.value.0, r.value.1)
    ensures r.Some? ==> forall i', k' :: i <= i' < r.value.0 ==> !MatchAt(s, i', k')
    ensures r.Some? ==> forall k' :: k' < r.value.1 ==> !MatchAt(s, r.value.0, k')
    ensures r.None? ==> forall i', k' :: i <= i' ==> !MatchAt(s, i', k')
    decreases |s| - i
  {
    if i >= |s| then None
    else
      match ShortestFrom(s, i, MinInner)
      case Some(k) => Some((i, k))
      case None =>
        assert forall k' :: !MatchAt(s, i, k');
        LeftmostFrom(s, i + 1)
  }

  /** `regexp.MustCompile("'(.{3,30}?)'").FindString(s)`: the whole match,
      quotes included, or the empty string when nothing matches. */
  function FindString(s: string): (r: string)
    ensures r == "" <==> forall i, k :: !MatchAt(s, i, k)
    ensures r != "" ==> exists i, k ::
      && MatchAt(s, i, k)
      && r == s[i..i + k + 2]
      && (forall i', k' :: 0 <= i' < i ==> !MatchAt(s, i', k'))
      && (forall k' :: k' < k ==> !MatchAt(s, i, k'))
  {
    match LeftmostFrom(s, 0)
    case None => ""
    case Some((i, k)) =>
      assert |s[i..i + k + 2]| == k + 2;
      s[i..i + k + 2]
  }

  /** The match a reader would pick by hand is the one found: leftmost
      start, shortest inner run. */
  lemma FindStringIs(s: string, i: nat, k: nat)
    requires MatchAt(s, i, k)
    requires forall i', k' :: 0 <= i' < i ==> !MatchAt(s, i', k')
    requires forall k' :: k' < k ==> !MatchAt(s, i, k')
    ensures FindString(s) == s[i..i + k + 2]
  {
    var r := LeftmostFrom(s, 0);
    assert r.Some?;
    assert r.value.0 == i;
    assert r.value.1 == k;
  }

  /** An entry of 3 to 30 characters with no quote and no newline, quoted and
      preceded by quote-free text, is what the expression finds. */
  lemma FindQuotedValue(prefix: string, v: string, suffix: string)
    requires MinInner <= |v| <= MaxInner
    requires forall j :: 0 <= j < |prefix| ==> prefix[j] != '\''
    requires forall j :: 0 <= j < |v| ==> v[j] != '\'' && v[j] != '\n'
    ensures FindString(prefix + "'" + v + "'" + suffix) == "'" + v + "'"
  {
    var s := prefix + "'" + v + "'" + suffix;
    QuotedLayout(s, prefix, v, suffix);
    QuotedEntryAt(s, |prefix|, v);
  }

  /** Where the parts of `prefix + "'" + v + "'" + suffix` sit. */
  lemma QuotedLayout(s: string, prefix: string, v: string, suffix: string)
    requires s == prefix + "'" + v + "'" + suffix
    requires forall j :: 0 <= j < |prefix| ==> prefix[j] != '\''
    ensures |s| == |prefix| + |v| + 2 + |suffix|
    ensures forall j :: 0 <= j < |prefix| ==> s[j] != '\''
    ensures s[|prefix|] == '\''
    ensures s[|prefix| + 1..|prefix| + 1 + |v|] == v
    ensures s[|prefix| + |v| + 1] == '\''
    ensures s[|prefix|..|prefix| + |v| + 2] == "'" + v + "'"
  {
    assert s == prefix + ("'" + v + "'") + suffix;
    forall j | 0 <= j < |prefix|
      ensures s[j] != '\''
    {
      assert s[j] == prefix[j];
    }
  }

  /** The first quote of `s` opens a run of 3 to 30 plain characters closed
      by a quote: that is the match found. */
  lemma QuotedEntryAt(s: string, i: nat, v: string)
    requires MinInner <= |v| <= MaxInner && i + |v| + 1 < |s|
    requires forall j :: 0 <= j < i ==> s[j] != '\''
    requires s[i] == '\'' && s[i + |v| + 1] == '\''
    requires s[i + 1..i + 1 + |v|] == v
    requires forall j :: 0 <= j < |v| ==> v[j] != '\'' && v[j] != '\n'
    ensures FindString(s) == s[i..i + |v| + 2]
  {
    forall j | 0 <= j < |v|
      ensures s[i + 1 + j] == v[j]
    {
      assert s[i + 1..i + 1 + |v|][j] == v[j];
    }
    NoMatchBefore(s, i);
    QuotedRunMatches(s, i, v);
    FindStringIs(s, i, |v|);
  }

  /** No match starts before the first quote. */
  lemma NoMatchBefore(s: string, i: nat)
    requires i <= |s|
    requires forall j :: 0 <= j < i ==> s[j] != '\''
    ensures forall i', k' :: 0 <= i' < i ==> !MatchAt(s, i', k')
  {
  }

  /** A quote, a run of 3 to 30 plain characters and a quote match at the
      first quote, and no shorter run does. */
  lemma QuotedRunMatches(s: string, i: nat, v: string)
    requires MinInner <= |v| <= MaxInner && i + |v| + 1 < |s|
    requires s[i] == '\'' && s[i + |v| + 1] == '\''
    requires forall j :: 0 <= j < |v| ==> s[i + 1 + j] == v[j]
    requires forall j :: 0 <= j < |v| ==> v[j] != '\'' && v[j] != '\n'
    ensures MatchAt(s, i, |v|)
    ensures forall k' :: k' < |v| ==> !MatchAt(s, i, k')
  {
    forall j | i + 1 <= j <= i + |v|
      ensures s[j] != '\n'
    {
      assert s[i + 1 + (j - i - 1)] == v[j - i - 1];
    }
    forall k' | k' < |v|
      ensures !MatchAt(s, i, k')
    {
      if MinInner <= k' {
        assert s[i + 1 + k'] == v[k'];
      }
    }
  }
}

=== FILE: server.dfy ===
/** The five HTTP handlers (`server.go`) as transitions over the user
    store. Each takes the request and the store and returns the reply with
    the store after the call.

    What the handlers cannot compute themselves comes from an `Env`: the
    clock, the JWT library with the process key, bcrypt's hashing and
    comparison, and the TOTP check of `dgoogauth`. Random bytes (the 2FA
    secret) are an argument of the call that draws them. */
module Server {
  import opened Wrappers
  import opened Strings
  import opened Errors
  import opened Api
  import Consts
  import JsonDecoder
  import Problems
  import Jwt
  import Store
  import Base32
  import Strconv

  /** What a handler reads from the HTTP request: the URL path, the two
      headers (absent reads as ""), and the decoder's view of the body. */
  datatype Request<T> = Request(
    path: string,
    contentType: string,
    authorization: string,
    body: JsonDecoder.Payload<T>)

  /** A 200 with a body, a problem details response, or a panic (the
      request gets no answer). */
  datatype Reply = Ok(body: SuccessBody) | Problem(problem: ProblemDetails) | Panic(reason: string)

  datatype Step = Step(reply: Reply, db: Store.Db)

  /** `dgoogauth.OTPConfig` as the core fills it in. */
  datatype OtpConfig = OtpConfig(secret: string, windowSize: int, hotpCounter: int)

  const OtpWindowSize: int := 3

  datatype Env = Env(
    now: int,
    jose: Jwt.Jose,
    encrypt: string -> Result<string, string>,
    matches: (string, string) -> bool,
    authenticate: (OtpConfig, string) -> Result<bool, string>)

  /** bcrypt's one promise: a hash made from a password matches it. */
  ghost predicate HashCoherent(env: Env) {
    forall p: string, h: string :: env.encrypt(p) == Success(h) ==> env.matches(h, p)
  }

  /** A token check as the handlers use it. */
  type Validator = string -> Result<Jwt.Claims, Jwt.TokenError>

  /** `security.ValidateToken`, the one the service ships. */
  function ShippedValidator(env: Env): Validator {
    t => Jwt.ValidateToken(env.jose, t, env.now)
  }

  /** The validator that returns the token's own claims. */
  function ClaimsValidator(env: Env): Validator {
    t => Jwt.ValidateTokenClaims(env.jose, t, env.now)
  }

  /** The bearer token of an `Authorization` header. */
  datatype Bearer = NoHeader | NoPrefix | Token(token: string)

  /** `strings.Split(header, "Bearer ")[1]`, after the empty-header check.
      A non-empty header without the prefix splits into one field, and
      indexing the second one panics: `NoPrefix`. */
  function BearerToken(header: string): (b: Bearer)
    ensures b == NoHeader <==> header == ""
    ensures b == NoPrefix <==> header != "" && !Contains(header, Consts.BearerPrefix)
    ensures b.Token? ==> SplitSecond(header, Consts.BearerPrefix) == Some(b.token)
    ensures b.Token? ==> FieldAfter(header, Consts.BearerPrefix, IndexOf(header, Consts.BearerPrefix).value, b.token)
    ensures b.Token? ==> !Contains(b.token, Consts.BearerPrefix)
  {
    if header == "" then NoHeader
    else match SplitSecond(header, Consts.BearerPrefix)
      case None => NoPrefix
      case Some(t) => Token(t)
  }

  /** The usual header, "Bearer " and the token, yields the token. */
  lemma BearerOfStandardHeader(token: string)
    requires !Contains(token, Consts.BearerPrefix)
    ensures BearerToken(Consts.BearerPrefix + token) == Token(token)
  {
    SplitSecondOfPrefixed(Consts.BearerPrefix, token);
  }

  /** The token prologue shared by `Setup2FA`, `Verify2FA` and `TestAuth`:
      an empty header or a rejected token is 401, a header without the
      prefix panics. */
  function Authorize(validate: Validator, path: string, header: string): (r: Result<Jwt.Claims, Reply>)
    ensures r.Success? <==> BearerToken(header).Token? && validate(BearerToken(header).token).Success?
    ensures r.Success? ==> r.value == validate(BearerToken(header).token).value
    ensures r.Failure? && BearerToken(header) != NoPrefix ==> r.error == Problem(Problems.Unauthorized(path))
    ensures BearerToken(header) == NoPrefix ==> r.Failure? && r.error.Panic?
  {
    match BearerToken(header)
    case NoHeader => Failure(Problem(Problems.Unauthorized(path)))
    case NoPrefix => Failure(Panic("index out of range [1] with length 1"))
    case Token(t) =>
      match validate(t)
      case Failure(_) => Failure(Problem(Problems.Unauthorized(path)))
      case Success(c) => Success(c)
  }

  /** `Signup`: validate the body, hash the password, insert the user. The
      store changes only on success, and then by exactly the new user. */
  function Signup(env: Env, req: Request<SignupRequest>, db: Store.Db): (s: Step)
    ensures JsonDecoder.DecodeJsonBody(req.contentType, req.body, SignupComplete).Fail? ==>
      s == Step(Problem(Problems.BadRequest(
        Malformed(JsonDecoder.DecodeJsonBody(req.contentType, req.body, SignupComplete).error), req.path)), db)
    ensures s.reply.Ok? ==>
      var r := req.body.value;
      && s.reply.body == NoContent
      && r.username !in db.users
      && env.encrypt(r.password).Success?
      && s.db.users == db.users[r.username := Store.User(r.email, env.encrypt(r.password).value, None, false)]
    ensures JsonDecoder.DecodeJsonBody(req.contentType, req.body, SignupComplete).Pass?
      && env.encrypt(req.body.value.password).Failure?
      ==> s == Step(Problem(Problems.UnexpectedErrorProblem(req.path)), db)
    ensures
      var r := req.body.value;
      && JsonDecoder.DecodeJsonBody(req.contentType, req.body, SignupComplete).Pass?
      && env.encrypt(r.password).Success?
      && Store.SaveUser(db, r.username, r.email, env.encrypt(r.password).value).Failure?
      ==> s == Step(Problem(Problems.GetProblemDetails(
            Store.SaveUser(db, r.username, r.email, env.encrypt(r.password).value).error, req.path)), db)
    ensures !s.reply.Ok? ==> s.db == db
    ensures s.reply.Problem? ==> s.reply.problem.instance == req.path
    ensures !s.reply.Panic?
  {
    match JsonDecoder.DecodeJsonBody(req.contentType, req.body, SignupComplete)
    case Fail(m) => Step(Problem(Problems.BadRequest(Malformed(m), req.path)), db)
    case Pass =>
      var r := req.body.value;
      match env.encrypt(r.password)
      case Failure(_) => Step(Problem(Problems.UnexpectedErrorProblem(req.path)), db)
      case Success(hash) =>
        match Store.SaveUser(db, r.username, r.email, hash)
        case Failure(e) => Step(Problem(Problems.GetProblemDetails(e, req.path)), db)
        case Success(after) => Step(Ok(NoContent), after)
  }

  /** How `Login` turns a failed lookup into a problem. */
  type LookupProblem = (Error, string) -> ProblemDetails

  /** `Login`: validate the body, look the user up, compare the password,
      issue a token that is not yet authenticated. The store is only read. */
  function LoginWith(classify: LookupProblem, env: Env, req: Request<LoginRequest>, db: Store.Db): (r: Reply)
    ensures JsonDecoder.DecodeJsonBody(req.contentType, req.body, LoginComplete).Fail? ==>
      r == Problem(Problems.BadRequest(
        Malformed(JsonDecoder.DecodeJsonBody(req.contentType, req.body, LoginComplete).error), req.path))
    ensures r.Ok? ==>
      && req.body.value.username in db.users
      && env.matches(db.users[req.body.value.username].passwordHash, req.body.value.password)
      && r.body == LoginResponse(Jwt.GenerateJwt(env.jose, req.body.value.username, false, env.now).token)
    ensures
      && JsonDecoder.DecodeJsonBody(req.contentType, req.body, LoginComplete).Pass?
      && Store.UserByUsername(db, req.body.value.username).Failure?
      ==> r == Problem(classify(Store.UserByUsername(db, req.body.value.username).error, req.path))
    ensures
      && JsonDecoder.DecodeJsonBody(req.contentType, req.body, LoginComplete).Pass?
      && Store.UserByUsername(db, req.body.value.username).Success?
      && !env.matches(Store.UserByUsername(db, req.body.value.username).value.passwordHash, req.body.value.password)
      ==> r == Problem(Problems.InvalidCredentials(req.path))
    ensures
      && JsonDecoder.DecodeJsonBody(req.contentType, req.body, LoginComplete).Pass?
      && Store.UserByUsername(db, req.body.value.username).Success?
      && env.matches(Store.UserByUsername(db, req.body.value.username).value.passwordHash, req.body.value.password)
      && Jwt.GenerateJwt(env.jose, req.body.value.username, false, env.now).err.None?
      ==> r == Ok(LoginResponse(Jwt.GenerateJwt(env.jose, req.body.value.username, false, env.now).token))
    ensures
      && JsonDecoder.DecodeJsonBody(req.contentType, req.body, LoginComplete).Pass?
      && Store.UserByUsername(db, req.body.value.username).Success?
      && env.matches(Store.UserByUsername(db, req.body.value.username).value.passwordHash, req.body.value.password)
      && Jwt.GenerateJwt(env.jose, req.body.value.username, false, env.now).err.Some?
      ==> r == Problem(Problems.UnexpectedErrorProblem(req.path))
    ensures !r.Panic?
  {
    match JsonDecoder.DecodeJsonBody(req.contentType, req.body, LoginComplete)
    case Fail(m) => Problem(Problems.BadRequest(Malformed(m), req.path))
    case Pass =>
      var l := req.body.value;
      match Store.UserByUsername(db, l.username)
      case Failure(e) => Problem(classify(e, req.path))
      case Success(u) =>
        if !env.matches(u.passwordHash, l.password) then Problem(Problems.InvalidCredentials(req.path))
        else
          var issued := Jwt.GenerateJwt(env.jose, l.username, false, env.now);
          if issued.err.Some? then Problem(Problems.UnexpectedErrorProblem(req.path))
          else Ok(LoginResponse(issued.token))
  }

  /** The shipped `Login`: a failed lookup goes through `GetProblemDetails`. */
  function Login(env: Env, req: Request<LoginRequest>, db: Store.Db): (r: Reply)
    ensures
      && JsonDecoder.DecodeJsonBody(req.contentType, req.body, LoginComplete).Pass?
      && db.fault.None? && req.body.value.username !in db.users
      ==> r == Problem(Problems.SqlNoRows(req.path))
    ensures JsonDecoder.DecodeJsonBody(req.contentType, req.body, LoginComplete).Pass? && db.fault.Some?
      ==> r == Problem(Problems.GetProblemDetails(db.fault.value, req.path))
    ensures
      && JsonDecoder.DecodeJsonBody(req.contentType, req.body, LoginComplete).Pass?
      && Store.UserByUsername(db, req.body.value.username).Success?
      && !env.matches(Store.UserByUsername(db, req.body.value.username).value.passwordHash, req.body.value.password)
      ==> r == Problem(Problems.InvalidCredentials(req.path))
    ensures
      && JsonDecoder.DecodeJsonBody(req.contentType, req.body, LoginComplete).Pass?
      && Store.UserByUsername(db, req.body.value.username).Success?
      && env.matches(Store.UserByUsername(db, req.body.value.username).value.passwordHash, req.body.value.password)
      && Jwt.GenerateJwt(env.jose, req.body.value.username, false, env.now).err.None?
      ==> r == Ok(LoginResponse(Jwt.GenerateJwt(env.jose, req.body.value.username, false, env.now).token))
  {
    LoginWith(Problems.GetProblemDetails, env, req, db)
  }

  /** A lookup classification that does not tell an unknown username from
      a wrong password. */
  function UniformLookupProblem(e: Error, path: string): (p: ProblemDetails)
    ensures e == NoRows ==> p == Problems.InvalidCredentials(path)
    ensures e != NoRows ==> p == Problems.GetProblemDetails(e, path)
  {
    if e == NoRows then Problems.InvalidCredentials(path) else Problems.GetProblemDetails(e, path)
  }

  /** `Login` as its tests expect it: an unknown username answers like a
      wrong password. */
  function LoginUniform(env: Env, req: Request<LoginRequest>, db: Store.Db): (r: Reply)
    ensures
      var l := req.body.value;
      && JsonDecoder.DecodeJsonBody(req.contentType, req.body, LoginComplete).Pass?
      && db.fault.None?
      && (l.username in db.users ==> !env.matches(db.users[l.username].passwordHash, l.password))
      ==> r == Problem(Problems.InvalidCredentials(req.path))
  {
    LoginWith(UniformLookupProblem, env, req, db)
  }

  /** The URI for the authenticator app's QR code. */
  function OtpAuthUri(username: string, secret: string): (uri: string)
    ensures HasPrefix(uri, OtpUriHead + username)
    ensures Enclosed(uri, OtpUriHead + username + SecretParam, IssuerParam) == Some(secret)
  {
    var head := OtpUriHead + username;
    PrefixOfConcat(head, SecretParam + secret + IssuerParam);
    EnclosedOf(head + SecretParam, secret, IssuerParam);
    assert head + (SecretParam + secret + IssuerParam) == head + SecretParam + secret + IssuerParam;
    head + SecretParam + secret + IssuerParam
  }

  const OtpUriHead: string := "otpauth://totp/GoAuth:"
  const SecretParam: string := "?secret="
  const IssuerParam: string := "&issuer=GoAuth"

  /** `Setup2FA`: for a user who has not enabled 2FA, store a fresh secret
      (the base32 text of ten random bytes) and answer its URI. */
  function Setup2FAWith(validate: Validator, req: Request<()>, random: seq<byte>, db: Store.Db): (s: Step)
    requires |random| == 10
    ensures Store.Grows(db, s.db)
    ensures s.db != db ==> s.reply.Ok?
    ensures Authorize(validate, req.path, req.authorization).Failure? ==>
      s == Step(Authorize(validate, req.path, req.authorization).error, db)
    ensures s.reply.Ok? ==>
      var c := Authorize(validate, req.path, req.authorization).value;
      && Store.GetEnabled2FA(db, c.username) == Success(false)
      && s.reply.body == Secret2FAResponse(OtpAuthUri(c.username, Base32.Encode(random)))
      && (c.username in db.users ==>
           s.db.users == db.users[c.username := db.users[c.username].(secret := Some(Base32.Encode(random)))])
    ensures Authorize(validate, req.path, req.authorization).Success?
      && Store.GetEnabled2FA(db, Authorize(validate, req.path, req.authorization).value.username) == Success(true)
      ==> s == Step(Problem(Problems.Unauthorized(req.path)), db)
    ensures Authorize(validate, req.path, req.authorization).Success? ==>
      var c := Authorize(validate, req.path, req.authorization).value;
      && (Store.GetEnabled2FA(db, c.username).Failure? ==>
            s == Step(Problem(Problems.UnexpectedErrorProblem(req.path)), db))
      && (Store.GetEnabled2FA(db, c.username) == Success(false) ==>
            s.reply == Ok(Secret2FAResponse(OtpAuthUri(c.username, Base32.Encode(random)))))
  {
    match Authorize(validate, req.path, req.authorization)
    case Failure(reply) => Step(reply, db)
    case Success(c) =>
      match Store.GetEnabled2FA(db, c.username)
      case Failure(_) => Step(Problem(Problems.UnexpectedErrorProblem(req.path)), db)
      case Success(enabled) =>
        if enabled then Step(Problem(Problems.Unauthorized(req.path)), db)
        else
          var secret := Base32.Encode(random);
          match Store.Save2FASecret(db, c.username, secret)
          case Failure(_) => Step(Problem(Problems.UnexpectedErrorProblem(req.path)), db)
          case Success(after) => Step(Ok(Secret2FAResponse(OtpAuthUri(c.username, secret))), after)
  }

  /** `Verify2FA`: the token is checked before the body; a failed secret
      lookup leaves the secret empty; an accepted code earns an
      authenticated token and enables 2FA if it was not yet. `complete`
      is the required-field check on the request record, whose tags are
      not part of this model. */
  function Verify2FAWith(env: Env, validate: Validator, complete: Verify2FARequest -> bool,
                         req: Request<Verify2FARequest>, db: Store.Db): (s: Step)
    ensures Store.Grows(db, s.db)
    ensures s.db != db ==> s.reply.Ok?
    ensures Authorize(validate, req.path, req.authorization).Failure? ==>
      s == Step(Authorize(validate, req.path, req.authorization).error, db)
    ensures
      && Authorize(validate, req.path, req.authorization).Success?
      && JsonDecoder.DecodeJsonBody(req.contentType, req.body, complete).Fail?
      ==> s == Step(Problem(Problems.BadRequest(
            Malformed(JsonDecoder.DecodeJsonBody(req.contentType, req.body, complete).error), req.path)), db)
    ensures
      && Authorize(validate, req.path, req.authorization).Success?
      && JsonDecoder.DecodeJsonBody(req.contentType, req.body, complete).Pass?
      && env.authenticate(OtpConfig(SecretOrEmpty(db, Authorize(validate, req.path, req.authorization).value.username),
                                    OtpWindowSize, 0),
                          Strconv.FormatInt(req.body.value.otp)) == Success(false)
      ==> s == Step(Problem(Problems.Unauthorized(req.path)), db)
    ensures
      && Authorize(validate, req.path, req.authorization).Success?
      && JsonDecoder.DecodeJsonBody(req.contentType, req.body, complete).Pass?
      ==>
      var c := Authorize(validate, req.path, req.authorization).value;
      var accepted := env.authenticate(OtpConfig(SecretOrEmpty(db, c.username), OtpWindowSize, 0),
                                       Strconv.FormatInt(req.body.value.otp));
      var issued := Jwt.GenerateJwt(env.jose, c.username, true, env.now);
      && (accepted.Failure? ==> s == Step(Problem(Problems.UnexpectedErrorProblem(req.path)), db))
      && (accepted == Success(true) && issued.err.Some? ==>
            s == Step(Problem(Problems.UnexpectedErrorProblem(req.path)), db))
      && (accepted == Success(true) && issued.err.None? && Store.GetEnabled2FA(db, c.username).Failure? ==>
            s == Step(Problem(Problems.UnexpectedErrorProblem(req.path)), db))
      && (accepted == Success(true) && issued.err.None? && Store.GetEnabled2FA(db, c.username).Success? ==>
            s.reply == Ok(VerifyResponse(issued.token)))
    ensures s.reply.Ok? ==>
      var c := Authorize(validate, req.path, req.authorization).value;
      && env.authenticate(OtpConfig(SecretOrEmpty(db, c.username), OtpWindowSize, 0),
                          Strconv.FormatInt(req.body.value.otp)) == Success(true)
      && s.reply.body == VerifyResponse(Jwt.GenerateJwt(env.jose, c.username, true, env.now).token)
      && (c.username in db.users && db.fault.None? ==> c.username in s.db.users && s.db.users[c.username].enabled)
  {
    match Authorize(validate, req.path, req.authorization)
    case Failure(reply) => Step(reply, db)
    case Success(c) =>
      match JsonDecoder.DecodeJsonBody(req.contentType, req.body, complete)
      case Fail(m) => Step(Problem(Problems.BadRequest(Malformed(m), req.path)), db)
      case Pass => CheckCode(env, c.username, req.body.value.otp, req.path, db)
  }

  /** The second half of `Verify2FA`, once the token and the body are
      good: check `otp` against the stored secret (or "" when the lookup
      fails), sign an authenticated token, enable 2FA if it was off. */
  function CheckCode(env: Env, username: string, otp: int, path: string, db: Store.Db): (s: Step)
    ensures Store.Grows(db, s.db)
    ensures s.db != db ==> s.reply.Ok?
    ensures
      var accepted := env.authenticate(OtpConfig(SecretOrEmpty(db, username), OtpWindowSize, 0), Strconv.FormatInt(otp));
      var issued := Jwt.GenerateJwt(env.jose, username, true, env.now);
      && (accepted.Failure? ==> s == Step(Problem(Problems.UnexpectedErrorProblem(path)), db))
      && (accepted == Success(false) ==> s == Step(Problem(Problems.Unauthorized(path)), db))
      && (accepted == Success(true) && issued.err.Some? ==>
            s == Step(Problem(Problems.UnexpectedErrorProblem(path)), db))
      && (accepted == Success(true) && issued.err.None? && Store.GetEnabled2FA(db, username).Failure? ==>
            s == Step(Problem(Problems.UnexpectedErrorProblem(path)), db))
      && (accepted == Success(true) && issued.err.None? && Store.GetEnabled2FA(db, username).Success? ==>
            s.reply == Ok(VerifyResponse(issued.token)))
    ensures s.reply.Ok? ==>
      && env.authenticate(OtpConfig(SecretOrEmpty(db, username), OtpWindowSize, 0), Strconv.FormatInt(otp)) == Success(true)
      && s.reply.body == VerifyResponse(Jwt.GenerateJwt(env.jose, username, true, env.now).token)
      && (username in db.users && db.fault.None? ==> username in s.db.users && s.db.users[username].enabled)
  {
    var secret := SecretOrEmpty(db, username);
    match env.authenticate(OtpConfig(secret, OtpWindowSize, 0), Strconv.FormatInt(otp))
    case Failure(_) => Step(Problem(Problems.UnexpectedErrorProblem(path)), db)
    case Success(ok) =>
      if !ok then Step(Problem(Problems.Unauthorized(path)), db)
      else
        var issued := Jwt.GenerateJwt(env.jose, username, true, env.now);
        if issued.err.Some? then Step(Problem(Problems.UnexpectedErrorProblem(path)), db)
        else
          match Store.GetEnabled2FA(db, username)
          case Failure(_) => Step(Problem(Problems.UnexpectedErrorProblem(path)), db)
          case Success(enabled) =>
            var after := if enabled then db else EnableOrKeep(db, username);
            Step(Ok(VerifyResponse(issued.token)), after)
  }

  /** `Get2FASecret` with its error dropped: the empty string. */
  function SecretOrEmpty(db: Store.Db, username: string): (secret: string)
    ensures db.fault.None? && username in db.users && db.users[username].secret.Some? ==>
      secret == db.users[username].secret.value
    ensures db.fault.Some? || username !in db.users || db.users[username].secret.None? ==> secret == ""
  {
    match Store.Get2FASecret(db, username)
    case Success(s) => s
    case Failure(_) => ""
  }

  /** `UpdateEnabled2FA(username, true)` with its error dropped. */
  function EnableOrKeep(db: Store.Db, username: string): (after: Store.Db)
    ensures Store.Grows(db, after)
    ensures db.fault.None? && username in db.users ==> username in after.users && after.users[username].enabled
  {
    match Store.UpdateEnabled2FA(db, username, true)
    case Success(d) => d
    case Failure(_) => db
  }

  const FullAccess: string := "Full access granted"

  /** `TestAuth`: only a token whose claims say `authenticated` gets in. */
  function TestAuthWith(validate: Validator, req: Request<()>): (r: Reply)
    ensures r.Ok? <==>
      Authorize(validate, req.path, req.authorization).Success?
      && Authorize(validate, req.path, req.authorization).value.authenticated
    ensures r.Ok? ==> r.body == Text(FullAccess)
    ensures r.Problem? ==> r.problem == Problems.Unauthorized(req.path)
  {
    match Authorize(validate, req.path, req.authorization)
    case Failure(reply) => reply
    case Success(c) =>
      if !c.authenticated then Problem(Problems.Unauthorized(req.path)) else Ok(Text(FullAccess))
  }

  /** The shipped handlers. */
  /** The shipped validator hands back the empty, unauthenticated claims. */
  lemma ShippedClaims(env: Env, path: string, header: string)
    ensures Authorize(ShippedValidator(env), path, header).Success? ==>
      Authorize(ShippedValidator(env), path, header).value == Jwt.Claims("", false, 0)
  {
    if Authorize(ShippedValidator(env), path, header).Success? {
      var t := BearerToken(header).token;
      assert ShippedValidator(env)(t) == Jwt.ValidateToken(env.jose, t, env.now);
    }
  }

  function Setup2FA(env: Env, req: Request<()>, random: seq<byte>, db: Store.Db): (s: Step)
    requires |random| == 10
    ensures Store.Grows(db, s.db)
    ensures s.db != db ==> s.reply.Ok?
    ensures s.reply.Ok? ==>
      && Store.GetEnabled2FA(db, "") == Success(false)
      && s.reply.body == Secret2FAResponse(OtpAuthUri("", Base32.Encode(random)))
  {
    ShippedClaims(env, req.path, req.authorization);
    Setup2FAWith(ShippedValidator(env), req, random, db)
  }

  function Verify2FA(env: Env, req: Request<Verify2FARequest>, db: Store.Db): (s: Step)
    ensures Store.Grows(db, s.db)
    ensures s.db != db ==> s.reply.Ok?
    ensures s.reply.Ok? ==>
      && env.authenticate(OtpConfig(SecretOrEmpty(db, ""), OtpWindowSize, 0),
                          Strconv.FormatInt(req.body.value.otp)) == Success(true)
      && s.reply.body == VerifyResponse(Jwt.GenerateJwt(env.jose, "", true, env.now).token)
  {
    ShippedClaims(env, req.path, req.authorization);
    Verify2FAWith(env, ShippedValidator(env), Verify2FAComplete, req, db)
  }

  function TestAuth(env: Env, req: Request<()>): (r: Reply)
    ensures !r.Ok?
    ensures r.Problem? ==> r.problem == Problems.Unauthorized(req.path)
  {
    ShippedClaims(env, req.path, req.authorization);
    TestAuthWith(ShippedValidator(env), req)
  }
}

=== FILE: store.dfy ===
/** The user store behind the handlers, as an immutable value. A user is
    identified by username; the `users` table also keeps the e-mail address
    unique. `fault`, when set, is the error every call reports (a lost
    connection, say): it stands for database failures in general. */
module Store {
  import opened Wrappers
  import opened Errors
  import Problems

  datatype User = User(email: string, passwordHash: string, secret: Option<string>, enabled: bool)

  datatype Db = Db(users: map<string, User>, fault: Option<Error>)

  /** Some stored user already has this address. */
  predicate EmailTaken(db: Db, email: string) {
    exists u | u in db.users :: db.users[u].email == email
  }

  /** `UserByUsername`: the row, or `sql.ErrNoRows` when there is none. */
  function UserByUsername(db: Db, username: string): (r: Result<User, Error>)
    ensures r.Success? <==> db.fault.None? && username in db.users
    ensures r.Success? ==> r.value == db.users[username]
    ensures db.fault.None? && username !in db.users ==> r == Failure(NoRows)
  {
    if db.fault.Some? then Failure(db.fault.value)
    else if username !in db.users then Failure(NoRows)
    else Success(db.users[username])
  }

  /** `SaveUser`: insert a new user, 2FA not set up. A taken username or
      address violates a unique key (error 1062); the username key is
      reported first. */
  function SaveUser(db: Db, username: string, email: string, passwordHash: string): (r: Result<Db, Error>)
    ensures r.Success? <==> db.fault.None? && username !in db.users && !EmailTaken(db, email)
    ensures r.Success? ==> r.value == db.(users := db.users[username := User(email, passwordHash, None, false)])
    ensures db.fault.None? && username in db.users ==>
      r == Failure(MySql(ErDupEntry, Problems.DuplicateEntryMessage(username, Problems.UsernameKey)))
    ensures db.fault.None? && username !in db.users && EmailTaken(db, email) ==>
      r == Failure(MySql(ErDupEntry, Problems.DuplicateEntryMessage(email, Problems.EmailKey)))
  {
    if db.fault.Some? then Failure(db.fault.value)
    else if username in db.users then
      Failure(MySql(ErDupEntry, Problems.DuplicateEntryMessage(username, Problems.UsernameKey)))
    else if EmailTaken(db, email) then
      Failure(MySql(ErDupEntry, Problems.DuplicateEntryMessage(email, Problems.EmailKey)))
    else Success(db.(users := db.users[username := User(email, passwordHash, None, false)]))
  }

  /** `GetEnabled2FA`: whether the user finished 2FA set-up. */
  function GetEnabled2FA(db: Db, username: string): (r: Result<bool, Error>)
    ensures r.Success? <==> db.fault.None? && username in db.users
    ensures r.Success? ==> r.value == db.users[username].enabled
  {
    match UserByUsername(db, username)
    case Success(u) => Success(u.enabled)
    case Failure(e) => Failure(e)
  }

  /** `Get2FASecret`: the stored secret; a user without one reads as an
      error (a NULL column). */
  function Get2FASecret(db: Db, username: string): (r: Result<string, Error>)
    ensures r.Success? <==> db.fault.None? && username in db.users && db.users[username].secret.Some?
    ensures r.Success? ==> Some(r.value) == db.users[username].secret
  {
    match UserByUsername(db, username)
    case Success(u) =>
      if u.secret.Some? then Success(u.secret.value) else Failure(Other("secret is NULL"))
    case Failure(e) => Failure(e)
  }

  /** `Save2FASecret`: an update by username, which changes nothing when the
      user does not exist. */
  function Save2FASecret(db: Db, username: string, secret: string): (r: Result<Db, Error>)
    ensures r.Success? <==> db.fault.None?
    ensures r.Success? && username in db.users ==>
      r.value == db.(users := db.users[username := db.users[username].(secret := Some(secret))])
    ensures r.Success? && username !in db.users ==> r.value == db
  {
    if db.fault.Some? then Failure(db.fault.value)
    else if username !in db.users then Success(db)
    else Success(db.(users := db.users[username := db.users[username].(secret := Some(secret))]))
  }

  /** `UpdateEnabled2FA`: set the flag, by username. */
  function UpdateEnabled2FA(db: Db, username: string, enabled: bool): (r: Result<Db, Error>)
    ensures r.Success? <==> db.fault.None?
    ensures r.Success? && username in db.users ==>
      r.value == db.(users := db.users[username := db.users[username].(enabled := enabled)])
    ensures r.Success? && username !in db.users ==> r.value == db
  {
    if db.fault.Some? then Failure(db.fault.value)
    else if username !in db.users then Success(db)
    else Success(db.(users := db.users[username := db.users[username].(enabled := enabled)]))
  }

  /** The store only ever grows and only ever turns 2FA on: every user of
      `before` is still there, with the same e-mail and hash, and an
      enabled user stays enabled. */
  ghost predicate Grows(before: Db, after: Db) {
    forall u | u in before.users ::
      && u in after.users
      && after.users[u].email == before.users[u].email
      && after.users[u].passwordHash == before.users[u].passwordHash
      && (before.users[u].enabled ==> after.users[u].enabled)
  }

  lemma GrowsTransitive(a: Db, b: Db, c: Db)
    requires Grows(a, b) && Grows(b, c)
    ensures Grows(a, c)
  {
  }

  /** Every successful store update keeps `Grows`, except clearing the flag. */
  lemma UpdatesGrow(db: Db, username: string, email: string, hash: string, secret: string)
    ensures SaveUser(db, username, email, hash).Success? ==> Grows(db, SaveUser(db, username, email, hash).value)
    ensures Save2FASecret(db, username, secret).Success? ==> Grows(db, Save2FASecret(db, username, secret).value)
    ensures UpdateEnabled2FA(db, username, true).Success? ==> Grows(db, UpdateEnabled2FA(db, username, true).value)
  {
  }
}

=== FILE: strconv.dfy ===
/** Decimal formatting as done by `fmt`'s `%d` verb and
    `strconv.FormatInt(n, 10)`, and Go string quoting as done by `%q`
    (`strconv.Quote`). Each formatter is paired with the parser that undoes
    it. */
module Strconv {
  import opened Wrappers

  predicate IsDigit(c: char) {
    '0' <= c <= '9'
  }

  function DigitChar(d: nat): (c: char)
    requires d < 10
    ensures IsDigit(c)
  {
    ('0' as int + d) as char
  }

  function DigitValue(c: char): (d: nat)
    requires IsDigit(c)
    ensures d < 10 && DigitChar(d) == c
  {
    c as int - '0' as int
  }

  predicate AllDigits(s: string) {
    forall i :: 0 <= i < |s| ==> IsDigit(s[i])
  }

  /** Decimal digits of `n`, most significant first, without leading zeros. */
  function FormatNat(n: nat): (r: string)
    ensures |r| >= 1 && AllDigits(r)
    ensures |r| > 1 ==> r[0] != '0'
    ensures n < 10 <==> |r| == 1
    decreases n
  {
    if n < 10 then [DigitChar(n)] else FormatNat(n / 10) + [DigitChar(n % 10)]
  }

  /** Value of a string of decimal digits. */
  function ParseNat(s: string): nat
    requires AllDigits(s)
  {
    if |s| == 0 then 0 else ParseNat(s[..|s| - 1]) * 10 + DigitValue(s[|s| - 1])
  }

  lemma {:induction false} ParseFormatNat(n: nat)
    ensures ParseNat(FormatNat(n)) == n
    decreases n
  {
    var r := FormatNat(n);
    if n >= 10 {
      ParseFormatNat(n / 10);
      assert r[..|r| - 1] == FormatNat(n / 10);
    }
  }

  /** How many decimal digits `s` ends with. */
  function TrailingDigits(s: string): (k: nat)
    ensures k <= |s| && AllDigits(s[|s| - k..])
  {
    if |s| == 0 || !IsDigit(s[|s| - 1]) then 0
    else
      var k := TrailingDigits(s[..|s| - 1]);
      assert s[|s| - 1 - k..] == s[..|s| - 1][|s| - 1 - k..] + [s[|s| - 1]];
      k + 1
  }

  /** Digits after a non-digit are exactly the trailing digits. */
  lemma {:induction false} TrailingDigitsOf(p: string, d: string)
    requires |p| > 0 && !IsDigit(p[|p| - 1]) && AllDigits(d)
    ensures TrailingDigits(p + d) == |d|
    decreases |d|
  {
    var s := p + d;
    if |d| == 0 {
      assert s == p;
    } else {
      assert s[..|s| - 1] == p + d[..|d| - 1];
      TrailingDigitsOf(p, d[..|d| - 1]);
    }
  }

  /** `strconv.FormatInt(n, 10)`: a minus sign, then the digits of |n|. */
  function FormatInt(n: int): (r: string)
    ensures |r| >= 1
    ensures r[0] == '-' <==> n < 0
  {
    if n < 0 then "-" + FormatNat(-n) else FormatNat(n)
  }

  /** Inverse of `FormatInt` on its image. */
  function ParseInt(s: string): Option<int> {
    if |s| >= 2 && s[0] == '-' && AllDigits(s[1..]) then Some(0 - ParseNat(s[1..]))
    else if |s| >= 1 && AllDigits(s) then Some(ParseNat(s))
    else None
  }

  lemma FormatIntRoundTrip(n: int)
    ensures ParseInt(FormatInt(n)) == Some(n)
  {
    var m: nat := if n < 0 then -n else n;
    var d := FormatNat(m);
    ParseFormatNat(m);
    if n < 0 {
      assert FormatInt(n) == "-" + d;
      ParseNegative(d);
    } else {
      assert FormatInt(n) == d;
      ParseDigits(d);
    }
  }

  lemma ParseNegative(d: string)
    requires |d| >= 1 && AllDigits(d)
    ensures ParseInt("-" + d) == Some(0 - ParseNat(d))
  {
    assert ("-" + d)[1..] == d;
  }

  lemma ParseDigits(d: string)
    requires |d| >= 1 && AllDigits(d)
    ensures ParseInt(d) == Some(ParseNat(d))
  {
    assert IsDigit(d[0]);
  }

  /** Distinct integers are formatted differently. */
  lemma FormatIntInjective(m: int, n: int)
    requires FormatInt(m) == FormatInt(n)
    ensures m == n
  {
    FormatIntRoundTrip(m);
    FormatIntRoundTrip(n);
  }

  /** The escape `strconv.Quote` writes for one character. */
  function EscapeChar(c: char): string {
    match c
    case '"' => "\\\""
    case '\\' => "\\\\"
    case '\n' => "\\n"
    case '\r' => "\\r"
    case '\t' => "\\t"
    case _ => [c]
  }

  function Escape(s: string): (r: string)
    ensures |r| >= |s|
  {
    if |s| == 0 then "" else EscapeChar(s[0]) + Escape(s[1..])
  }

  /** `%q` of a string: escaped and surrounded by double quotes. */
  function Quote(s: string): (r: string)
    ensures |r| >= |s| + 2 && r[0] == '"' && r[|r| - 1] == '"'
  {
    "\"" + Escape(s) + "\""
  }

  /** Reads back what `Escape` writes; `None` for a dangling or unknown
      escape or a bare double quote. */
  function Unescape(s: string): Option<string>
    decreases |s|
  {
    if |s| == 0 then Some("")
    else if s[0] == '"' then None
    else if s[0] != '\\' then
      match Unescape(s[1..])
      case None => None
      case Some(t) => Some([s[0]] + t)
    else if |s| < 2 then None
    else
      var c: Option<char> :=
        match s[1]
        case '"' => Some('"')
        case '\\' => Some('\\')
        case 'n' => Some('\n')
        case 'r' => Some('\r')
        case 't' => Some('\t')
        case _ => None;
      match c
      case None => None
      case Some(ch) =>
        match Unescape(s[2..])
        case None => None
        case Some(t) => Some([ch] + t)
  }

  function Unquote(s: string): Option<string> {
    if |s| >= 2 && s[0] == '"' && s[|s| - 1] == '"' then Unescape(s[1..|s| - 1]) else None
  }

  /** Unescaping consumes exactly the escape of the first character. */
  lemma UnescapeCons(c: char, rest: string)
    ensures Unescape(EscapeChar(c) + rest) ==
      match Unescape(rest)
      case None => None
      case Some(t) => Some([c] + t)
  {
    var e := EscapeChar(c) + rest;
    if |EscapeChar(c)| == 1 {
      assert e[0] == c && e[1..] == rest;
    } else {
      assert e[2..] == rest;
    }
  }

  lemma {:induction false} UnescapeEscape(s: string)
    ensures Unescape(Escape(s)) == Some(s)
    decreases |s|
  {
    if |s| > 0 {
      UnescapeEscape(s[1..]);
      UnescapeCons(s[0], Escape(s[1..]));
      assert [s[0]] + s[1..] == s;
    }
  }

  lemma UnquoteQuote(s: string)
    ensures Unquote(Quote(s)) == Some(s)
  {
    var q := Quote(s);
    assert q[1..|q| - 1] == Escape(s);
    UnescapeEscape(s);
  }
}

=== FILE: strings.dfy ===
/** The parts of Go's `strings` package the core relies on: substring
    search (`strings.Index`, `strings.Contains`), prefix handling
    (`strings.HasPrefix`, `strings.TrimPrefix`) and the second field of
    `strings.Split`. Each is specified against `OccursAt`, the plain
    definition of "t appears in s at offset i". */
module Strings {
  import opened Wrappers

  predicate OccursAt(s: string, t: string, i: int) {
    0 <= i && i + |t| <= |s| && s[i..i + |t|] == t
  }

  /** Leftmost occurrence of `t` in `s` at or after `i`. */
  function IndexFrom(s: string, t: string, i: nat): (r: Option<nat>)
    ensures r.Some? ==> i <= r.value && OccursAt(s, t, r.value)
    ensures r.Some? ==> forall j :: i <= j < r.value ==> !OccursAt(s, t, j)
    ensures r.None? ==> forall j :: i <= j ==> !OccursAt(s, t, j)
    decreases |s| + 1 - i
  {
    if i + |t| > |s| then None
    else if s[i..i + |t|] == t then Some(i)
    else IndexFrom(s, t, i + 1)
  }

  /** `strings.Index`: the leftmost occurrence, if any. */
  function IndexOf(s: string, t: string): (r: Option<nat>)
    ensures r.Some? ==> OccursAt(s, t, r.value)
    ensures r.Some? ==> forall j :: 0 <= j < r.value ==> !OccursAt(s, t, j)
    ensures r.None? ==> forall j :: !OccursAt(s, t, j)
  {
    IndexFrom(s, t, 0)
  }

  /** `strings.Contains`. */
  function Contains(s: string, t: string): (r: bool)
    ensures r <==> exists i :: OccursAt(s, t, i)
  {
    IndexOf(s, t).Some?
  }

  predicate HasPrefix(s: string, p: string) {
    |p| <= |s| && s[..|p|] == p
  }

  predicate HasSuffix(s: string, p: string) {
    |p| <= |s| && s[|s| - |p|..] == p
  }

  lemma PrefixOfConcat(a: string, b: string)
    ensures HasPrefix(a + b, a)
  {
    assert (a + b)[..|a|] == a;
  }

  lemma PrefixTransitive(s: string, p: string, q: string)
    requires HasPrefix(s, p) && HasPrefix(p, q)
    ensures HasPrefix(s, q)
  {
    assert s[..|q|] == s[..|p|][..|q|];
  }

  /** Two prefixes that disagree at some position exclude each other. */
  lemma PrefixesDiffer(s: string, a: string, b: string, j: nat)
    requires HasPrefix(s, a) && j < |a| && j < |b| && a[j] != b[j]
    ensures !HasPrefix(s, b) && s != b
  {
    assert s[j] == a[j];
  }

  /** The text strictly between `head` and `tail`, when `s` has both. */
  function Enclosed(s: string, head: string, tail: string): (r: Option<string>)
    ensures r.Some? ==> head + r.value + tail == s
  {
    if |head| + |tail| <= |s| && HasPrefix(s, head) && HasSuffix(s, tail) then
      var mid := s[|head|..|s| - |tail|];
      assert s == s[..|head|] + mid + s[|s| - |tail|..];
      Some(mid)
    else None
  }

  lemma EnclosedOf(head: string, mid: string, tail: string)
    ensures Enclosed(head + mid + tail, head, tail) == Some(mid)
  {
    var s := head + mid + tail;
    assert s[..|head|] == head;
    assert s[|s| - |tail|..] == tail;
    assert s[|head|..|s| - |tail|] == mid;
  }

  /** With no head, the text before a trailing `tail` is read back. */
  lemma EnclosedTail(mid: string, tail: string)
    ensures Enclosed(mid + tail, "", tail) == Some(mid)
  {
    EnclosedOf("", mid, tail);
    assert "" + mid + tail == mid + tail;
  }

  /** `strings.TrimPrefix`: drops `p` when `s` starts with it. */
  function TrimPrefix(s: string, p: string): (r: string)
    ensures HasPrefix(s, p) ==> p + r == s
    ensures !HasPrefix(s, p) ==> r == s
  {
    if HasPrefix(s, p) then s[|p|..] else s
  }

  /** `f` is the field `strings.Split` puts after the occurrence of `sep`
      at `i`: it starts right after that occurrence, no occurrence of `sep`
      starts inside it, and it ends at the next occurrence or at the end of
      `s`. */
  predicate FieldAfter(s: string, sep: string, i: int, f: string) {
    var k := i + |sep|;
    && OccursAt(s, f, k)
    && (forall j :: k <= j < k + |f| ==> !OccursAt(s, sep, j))
    && (k + |f| == |s| || OccursAt(s, sep, k + |f|))
  }

  /** `strings.Split(s, sep)[1]`: the text between the first and the second
      occurrence of `sep` (or the end of `s`). `None` stands for the
      out-of-range index Go reports when `sep` does not occur at all. */
  function SplitSecond(s: string, sep: string): (r: Option<string>)
    requires sep != ""
    ensures r.Some? <==> Contains(s, sep)
    ensures r.Some? ==> FieldAfter(s, sep, IndexOf(s, sep).value, r.value)
    ensures r.Some? ==> !Contains(r.value, sep)
  {
    match IndexOf(s, sep)
    case None => None
    case Some(i) =>
      var rest := s[i + |sep|..];
      match IndexOf(rest, sep)
      case None =>
        LastField(s, sep, i);
        FieldAfterSepFree(s, sep, i, rest);
        Some(rest)
      case Some(m) =>
        MiddleField(s, sep, i, m);
        FieldAfterSepFree(s, sep, i, rest[..m]);
        Some(rest[..m])
  }

  /** With no later occurrence, the field runs to the end. */
  lemma LastField(s: string, sep: string, i: nat)
    requires i + |sep| <= |s|
    requires IndexOf(s[i + |sep|..], sep).None?
    ensures FieldAfter(s, sep, i, s[i + |sep|..])
  {
    var k := i + |sep|;
    forall j | k <= j < |s|
      ensures !OccursAt(s, sep, j)
    {
      OccursInSuffix(s, sep, k, j - k);
    }
  }

  /** Otherwise it runs to the next occurrence. */
  lemma MiddleField(s: string, sep: string, i: nat, m: nat)
    requires i + |sep| <= |s|
    requires IndexOf(s[i + |sep|..], sep) == Some(m)
    ensures m <= |s[i + |sep|..]|
    ensures FieldAfter(s, sep, i, s[i + |sep|..][..m])
  {
    var k := i + |sep|;
    var rest := s[k..];
    assert s[k..k + m] == rest[..m];
    forall j | k <= j < k + m
      ensures !OccursAt(s, sep, j)
    {
      OccursInSuffix(s, sep, k, j - k);
    }
    OccursInSuffix(s, sep, k, m);
  }

  /** A field holds no whole separator. */
  lemma FieldAfterSepFree(s: string, sep: string, i: int, f: string)
    requires sep != "" && FieldAfter(s, sep, i, f)
    ensures !Contains(f, sep)
  {
    var k := i + |sep|;
    forall q | OccursAt(f, sep, q)
      ensures false
    {
      assert f == s[k..k + |f|];
      forall t | 0 <= t < |sep|
        ensures s[k + q + t] == sep[t]
      {
        assert f[q + t] == sep[t];
      }
      assert s[k + q..k + q + |sep|] == sep;
      assert OccursAt(s, sep, k + q);
    }
  }

  /** Occurrences in a suffix are occurrences in the whole string, shifted. */
  lemma OccursInSuffix(s: string, t: string, k: nat, j: nat)
    requires k <= |s|
    ensures OccursAt(s, t, k + j) <==> OccursAt(s[k..], t, j)
  {
    if k + j + |t| <= |s| {
      assert s[k + j..k + j + |t|] == s[k..][j..j + |t|];
    }
  }

  /** The field after an occurrence is unique: any text meeting
      `FieldAfter` there is the one `SplitSecond` returns. */
  lemma FieldAfterUnique(s: string, sep: string, i: int, f: string, g: string)
    requires FieldAfter(s, sep, i, f) && FieldAfter(s, sep, i, g)
    ensures f == g
  {
    assert |f| == |g|;
    assert f == s[i + |sep|..i + |sep| + |f|];
  }

  /** So `SplitSecond` is pinned down by its contract: the field after the
      first occurrence, whatever way it is found. */
  lemma SplitSecondIsField(s: string, sep: string, f: string)
    requires sep != "" && Contains(s, sep)
    requires FieldAfter(s, sep, IndexOf(s, sep).value, f)
    ensures SplitSecond(s, sep) == Some(f)
  {
    FieldAfterUnique(s, sep, IndexOf(s, sep).value, f, SplitSecond(s, sep).value);
  }

  /** A separator that opens the string is found at offset 0, and the field
      after it is the remainder when the separator does not recur. */
  lemma SplitSecondOfPrefixed(sep: string, t: string)
    requires sep != ""
    requires !Contains(t, sep)
    ensures SplitSecond(sep + t, sep) == Some(t)
  {
    var s := sep + t;
    assert OccursAt(s, sep, 0) by { assert s[0..|sep|] == sep; }
    var i := IndexOf(s, sep);
    assert i == Some(0);
    assert s[|sep|..] == t;
    assert IndexOf(t, sep).None?;
  }
}

=== FILE: wrappers.dfy ===
/** Failure-carrying values shared by every module of the model: Go's
    `(value, error)` pairs become `Result`, an optional lookup becomes
    `Option`, and an error-or-nothing return becomes `Outcome`. */
module Wrappers {

  datatype Option<+T> = None | Some(value: T) {
    function GetOr(default: T): T {
      match this
      case Some(v) => v
      case None => default
    }
  }

  datatype Result<+T, +E> = Success(value: T) | Failure(error: E)

  datatype Outcome<+E> = Pass | Fail(error: E)

  /** Go's `byte`. */
  type byte = b: int | 0 <= b < 256
}
